=== FILE: README.md ===
# Architecture exercises of Aula_CSharp, modelled in Dafny

This project models the behavioural core of the C# architecture exercises in
`Es_Architetture/`:

- the N-tier order system (`ES_Ntier.cs`): the `Order` state machine New → Paid → Shipped, with Cancelled reachable
  from every status except Shipped; items added only while New and only with a positive quantity; subtotal, 22% VAT
  rounded half-to-even to the cent, and total; a product repository keyed case-insensitively; and the product and
  order services with their exceptions;
- the simplified N-tier program (`ES_Nrtier2_easy.cs`): the same state machine without the quantity check, and the
  interactive entry loop that does the validating instead;
- the payment exercise (`ES_delegate.cs`): discount policies, the payment-method factory, the transaction-id shape,
  and the payment service that notifies its subscribers;
- the event-sourcing exercise (`EventSourcing.cs`): an append-only event store, a validated command, and a read model
  rebuilt as a projection of the log;
- the event-driven exercise (`Event-Driven.cs`): a bus keyed by exact event type, and a counting read model;
- the layered and hexagonal exercises (`Layered.cs`, `Esagonale.cs`): in-memory stores seeded with "Pane", and the
  use cases in front of them.

Every C# method that mutates an object becomes a pure function from the old state to the new one. A method that can
throw returns a `Result`: `Ok` holds the new state, `Err` holds the exception class (`Outcomes.Fault`). A method that
only mutates returns the new state directly. Each modelled C# method throws before it mutates anything, so for a
single method `Err` also means "nothing changed". The one exception is `NtierEasy.Session`, which models the
whole `Main` of the easy N-tier program: there a refused `Ship` throws after the entry loop has already added
items to the order.

C# `decimal` amounts are whole numbers of cents (`Money.Cents`). Rates such as 0.22 are decimal fractions
(`Money.Rate(22, 2)`). `Math.Round(d, 2)` is round-half-to-even to the cent, specified by `Money.RoundsHalfEven`.
Strings whose null value changes the behaviour (product codes, command names, the Layered and Hexagonal product names) are
`Option<string>` (`Text.NullableString`); customers and product names of the N-tier programs are plain strings.
Guids, timestamps and delegates become opaque ids passed in as parameters. Logging, notifications and handler
invocations are recorded as traces in the returned value.

Modules, one per source file (`ES_Ntier.cs` is split along its namespaces):

| module | file | models |
|---|---|---|
| `Outcomes` | outcomes.dfy | `Option`, `Result`, the exception classes |
| `Text` | text.dfy | `string.IsNullOrWhiteSpace`, `StringComparison.OrdinalIgnoreCase` |
| `Money` | money.dfy | cents, decimal rates, `Math.Round(d, 2)`, order totals |
| `NtierDomain` | ntier_domain.dfy | namespace `Domain` of `ES_Ntier.cs` |
| `NtierApplication` | ntier_application.dfy | namespaces `Infrastructure`, `Application` and the demo of `ES_Ntier.cs` |
| `NtierEasy` | ntier_easy.dfy | `ES_Nrtier2_easy.cs` |
| `Payments` | payments.dfy | `ES_delegate.cs` |
| `EventSourcing` | event_sourcing.dfy | `EventSourcing.cs` |
| `EventDriven` | event_driven.dfy | `Event-Driven.cs` |
| `Layered` | layered.dfy | `Layered.cs` |
| `Hexagonal` | hexagonal.dfy | `Esagonale.cs` |

## Model

| member | source | states |
|---|---|---|
| Money.RoundHalfEven | Es_Architetture/Es1_main_Ntier/ES_Ntier.cs:186 | the result is the integer nearest to n/d, and on an exact tie it is the even one |
| Money.RoundHalfEvenUnique | Es_Architetture/Es1_main_Ntier/ES_Ntier.cs:186 | exactly one integer meets the round-half-to-even specification, so rounding is fully determined by it |
| Money.ApplyRate | Es_Architetture/ES_delegate.cs:40 | the amount times the rate, rounded half-to-even to the cent |
| Money.ApplyRateWithin | Es_Architetture/ES_delegate.cs:40 | a non-negative amount scaled by a rate between 0 and 1 stays between 0 and the amount |
| Money.ApplyUnitRate | Es_Architetture/ES_delegate.cs:40 | a rate of exactly 1 leaves every amount unchanged |
| Text.FoldCaseIsIgnoreCase | Es_Architetture/Es1_main_Ntier/ES_Ntier.cs:98 | two codes share a dictionary key exactly when they are equal ignoring case, in both directions |
| Text.IgnoreCaseEquivalence | Es_Architetture/Es1_main_Ntier/ES_Nrtier2_easy.cs:129 | comparison ignoring case is reflexive, symmetric and transitive |
| NtierDomain.NewOrder | Es_Architetture/Es1_main_Ntier/ES_Ntier.cs:23-29 | a new order is New, has no items, a zero subtotal, and keeps its id and customer |
| NtierDomain.Subtotal | Es_Architetture/Es1_main_Ntier/ES_Ntier.cs:38 | reference definition, the sum of price times quantity over the lines: zero for no lines, and non-negative when every line total is |
| NtierDomain.SubtotalAppend | Es_Architetture/Es1_main_Ntier/ES_Ntier.cs:38 | appending an item raises the subtotal by exactly that item's price times quantity |
| NtierDomain.SubtotalConcat | Es_Architetture/Es1_main_Ntier/ES_Ntier.cs:38 | the subtotal of two item lists joined is the sum of their subtotals |
| NtierDomain.SubtotalNonNegative | Es_Architetture/Es1_main_Ntier/ES_Ntier.cs:18 | with non-negative prices and quantities the subtotal is non-negative |
| NtierDomain.AddItem | Es_Architetture/Es1_main_Ntier/ES_Ntier.cs:31-36 | a non-New order throws InvalidOperation; otherwise a non-positive quantity throws Argument; it succeeds exactly when New with a positive quantity, appending one item at the end with id, customer and status kept |
| NtierDomain.Pay | Es_Architetture/Es1_main_Ntier/ES_Ntier.cs:40 | succeeds exactly from New, leads to Paid and keeps the items; otherwise throws InvalidOperation |
| NtierDomain.Ship | Es_Architetture/Es1_main_Ntier/ES_Ntier.cs:41 | succeeds exactly from Paid, leads to Shipped and keeps the items; otherwise throws InvalidOperation |
| NtierDomain.Cancel | Es_Architetture/Es1_main_Ntier/ES_Ntier.cs:42 | succeeds exactly from every status but Shipped, leads to Cancelled and keeps the items; otherwise throws InvalidOperation |
| NtierDomain.StepFollowsTable | Es_Architetture/Es1_main_Ntier/ES_Ntier.cs:31-42 | every call on an order succeeds exactly on an edge of the state-machine table and lands on that edge's target status |
| NtierDomain.ShippedIsTerminal | Es_Architetture/Es1_main_Ntier/ES_Ntier.cs:31-42 | every call on a shipped order throws InvalidOperation |
| NtierDomain.RunInvariants | Es_Architetture/Es1_main_Ntier/ES_Ntier.cs:21-42 | over any successful sequence of calls the id and customer stay fixed, the status only moves forward, items are only appended and only while New, and all quantities stay positive |
| NtierDomain.CancelReachable | Es_Architetture/Es1_main_Ntier/ES_Ntier.cs:42 | from every status except Shipped, one Cancel reaches Cancelled |
| NtierApplication.GetByCodeMatches | Es_Architetture/Es1_main_Ntier/ES_Ntier.cs:100 | a product found under a code has a code equal to it ignoring case, and is in the repository |
| NtierApplication.AddProduct | Es_Architetture/Es1_main_Ntier/ES_Ntier.cs:99 | the dictionary gains the product under its case-folded code, overwriting an equal-ignoring-case code, and every other entry is kept |
| NtierApplication.GetByCode | Es_Architetture/Es1_main_Ntier/ES_Ntier.cs:100 | a found product is stored and has the same case-folded code as the query; nothing is found exactly when no stored product has that folded code |
| NtierApplication.AddThenGet | Es_Architetture/Es1_main_Ntier/ES_Ntier.cs:98-100 | after an Add, every spelling of the code finds the new product, and every other code's lookup is unchanged |
| NtierApplication.RepoIsLastMatch | Es_Architetture/Es1_main_Ntier/ES_Ntier.cs:98-100 | over any history of Adds, a lookup returns the most recently added product whose code matches ignoring case |
| NtierApplication.CreateProduct | Es_Architetture/Es1_main_Ntier/ES_Ntier.cs:136-140 | a null or blank code throws Argument; otherwise the product is found under its code and no code that differs ignoring case is affected |
| NtierApplication.Require | Es_Architetture/Es1_main_Ntier/ES_Ntier.cs:143-144 | a null code throws ArgumentNull; an unknown code throws InvalidOperation; otherwise it returns the stored product, whose code matches ignoring case |
| NtierApplication.FindOrder | Es_Architetture/Es1_main_Ntier/ES_Ntier.cs:176 | an unknown order id throws InvalidOperation; otherwise it returns the stored order with that id |
| NtierApplication.CreateOrder | Es_Architetture/Es1_main_Ntier/ES_Ntier.cs:166-171 | a new New order is stored under its fresh id, and nothing else in the store changes |
| NtierApplication.UpdateOrder | Es_Architetture/Es1_main_Ntier/ES_Ntier.cs:205-207 | the fetch-call-update pattern: succeeds exactly when the order exists and the call succeeds, and then only that order changes |
| NtierApplication.StepKeepsId | Es_Architetture/Es1_main_Ntier/ES_Ntier.cs:23 | no call changes an order's id |
| NtierApplication.OrderAddItem | Es_Architetture/Es1_main_Ntier/ES_Ntier.cs:174-180 | an unknown order throws before the product is looked up; a product failure is passed on; it succeeds exactly when order and product exist, the order is New and the quantity positive, and then appends one line and raises the subtotal by price times quantity |
| Money.TotalsFor | Es_Architetture/Es1_main_Ntier/ES_Ntier.cs:185-188 | tax is the subtotal times the rate, rounded half-to-even to the cent, and total is subtotal plus tax |
| NtierApplication.ComputeTotals | Es_Architetture/Es1_main_Ntier/ES_Ntier.cs:182-189 | an unknown order throws InvalidOperation; otherwise the subtotal is the order's, the tax is 22% rounded half-to-even, and the total is their sum |
| NtierApplication.Checkout | Es_Architetture/Es1_main_Ntier/ES_Ntier.cs:191-196 | succeeds exactly for a stored New order, which becomes Paid; nothing else changes |
| NtierApplication.ShipOrder | Es_Architetture/Es1_main_Ntier/ES_Ntier.cs:203-207 | succeeds exactly for a stored Paid order, which becomes Shipped; nothing else changes |
| NtierApplication.CancelOrder | Es_Architetture/Es1_main_Ntier/ES_Ntier.cs:211-215 | succeeds exactly for a stored order that is not Shipped, which becomes Cancelled; nothing else changes |
| NtierApplication.SeedLookups | Es_Architetture/Es1_main_Ntier/ES_Ntier.cs:261-263 | after the seed, PEN and MUG find their products |
| NtierApplication.DemoScenario | Es_Architetture/Es1_main_Ntier/ES_Ntier.cs:261-278 | the demo's totals are 11.90 + 2.62 = 14.52 and the order ends Shipped with two lines |
| NtierEasy.AddItem | Es_Architetture/Es1_main_Ntier/ES_Nrtier2_easy.cs:47-52 | succeeds exactly while New, with any quantity, appending one item and raising the subtotal by its line total; otherwise throws InvalidOperation |
| NtierEasy.AddItemUnchecked | Es_Architetture/Es1_main_Ntier/ES_Nrtier2_easy.cs:47-52 | agrees with the checked AddItem on positive quantities, and accepts a non-positive quantity that the checked one rejects |
| NtierEasy.Transitions | Es_Architetture/Es1_main_Ntier/ES_Nrtier2_easy.cs:54-73 | Pay only from New, Ship only from Paid, Cancel from New, Paid or Cancelled; any other call throws InvalidOperation; Cancel is idempotent |
| NtierEasy.FindByCode | Es_Architetture/Es1_main_Ntier/ES_Nrtier2_easy.cs:129 | a found product is in the list and matches ignoring case; nothing is found exactly when no product matches |
| NtierEasy.FindByCodeFirst | Es_Architetture/Es1_main_Ntier/ES_Nrtier2_easy.cs:129 | the product found is the first match in list order |
| NtierEasy.AcceptedValid | Es_Architetture/Es1_main_Ntier/ES_Nrtier2_easy.cs:127-143 | every item the entry loop accepts has a positive quantity and a product from the list |
| NtierEasy.EnterItems | Es_Architetture/Es1_main_Ntier/ES_Nrtier2_easy.cs:123-145 | the loop appends exactly the accepted entries in order, each with a positive quantity and a listed product; the order stays New |
| NtierEasy.OrderTotals | Es_Architetture/Es1_main_Ntier/ES_Nrtier2_easy.cs:148-150 | VAT is the subtotal times 0.22 rounded half-to-even, and the total is subtotal plus VAT |
| NtierEasy.Confirm | Es_Architetture/Es1_main_Ntier/ES_Nrtier2_easy.cs:155-167 | for a New order, answering ship without pay throws; otherwise it ends Shipped, Paid or New as answered, with the items, id and customer kept |
| NtierEasy.Session | Es_Architetture/Es1_main_Ntier/ES_Nrtier2_easy.cs:113-167 | a session's order keeps its id and customer and holds exactly the accepted entries, all with positive quantities; the subtotal is theirs, VAT is 22% of it rounded half-to-even and the total is their sum; the prompts throw InvalidOperation exactly when ship is asked without pay, and otherwise the order ends Shipped, Paid or New as answered |
| NtierEasy.SampleEntries | Es_Architetture/Es1_main_Ntier/ES_Nrtier2_easy.cs:123-145 | on a sample input, lower- and mixed-case codes are found; an unknown code, a zero quantity and an unparsable quantity are skipped; a blank code ends the loop |
| Payments.Applica | Es_Architetture/ES_delegate.cs:31-41 | no discount is the identity; a percent p gives the gross times (1 - p), rounded half-to-even to the cent |
| Payments.DiscountWithin | Es_Architetture/ES_delegate.cs:40 | for 0 ≤ p ≤ 1 and a non-negative gross, the net lies between 0 and the gross |
| Payments.ZeroPercentIsNoDiscount | Es_Architetture/ES_delegate.cs:33-40 | a 0% discount agrees with no discount on every amount |
| Payments.TenPercentExamples | Es_Architetture/ES_delegate.cs:40 | 10% off 100.00 is 90.00; 10% off 0.05 is 0.04 and off 0.15 is 0.14 (ties to even) |
| Payments.Crea | Es_Architetture/ES_delegate.cs:70-76 | succeeds exactly for the three defined values, returning the method with that value; any other value throws ArgumentOutOfRange |
| Payments.CreaInvertsTipo | Es_Architetture/ES_delegate.cs:70-76 | the factory creates each method from its own value, and the defined values are exactly those of some method |
| Payments.TransactionId | Es_Architetture/ES_delegate.cs:44-65 | every id has 12 characters: the method's 5-character prefix and then the first 7 hex digits of the Guid |
| Payments.IdNamesMethod | Es_Architetture/ES_delegate.cs:44-65 | the prefix of every transaction id names the method that issued it |
| Payments.Subscribe | Es_Architetture/ES_delegate.cs:95 | a subscription adds the handler at the end, keeping duplicates, the method and the discount |
| Payments.Notify | Es_Architetture/ES_delegate.cs:109 | every handler is invoked once, in subscription order, with the id and the net amount |
| Payments.EseguiPagamento | Es_Architetture/ES_delegate.cs:97-110 | a non-positive amount throws Argument before anything happens; otherwise the log is gross, net, success in that order, the net is charged, and each handler receives the id and the net once, in order |
| Payments.SubscribeAddsLastNotification | Es_Architetture/ES_delegate.cs:95-110 | one more subscriber adds exactly one notification at the end and changes nothing else about a payment |
| Payments.RunProgram | Es_Architetture/ES_delegate.cs:116-152 | an invalid choice or a missing or non-positive amount ends the program; otherwise the 10% net is charged, the e-mail handler is notified before the CRM handler, and the id names the chosen method |
| EventSourcing.Append | Es_Architetture/EventSourcing.cs:12 | the event goes at the end and the earlier events are unchanged |
| EventSourcing.AppendOnly | Es_Architetture/EventSourcing.cs:11-13 | after any appends the log is the old log followed by the new events in append order |
| EventSourcing.Handle | Es_Architetture/EventSourcing.cs:23-27 | a null or blank name throws Argument; otherwise exactly one ProdottoCreato with the name is appended |
| EventSourcing.Project | Es_Architetture/EventSourcing.cs:34-35 | a name is projected exactly when some ProdottoCreato in the log carries it |
| EventSourcing.ProjectConcat | Es_Architetture/EventSourcing.cs:35 | the projection of two logs joined is the two projections joined, so log order is kept |
| EventSourcing.Rebuild | Es_Architetture/EventSourcing.cs:34-35 | the catalogue holds at most one name per event, and a name is in it exactly when some ProdottoCreato event in the log carries it |
| EventSourcing.RebuildReplaces | Es_Architetture/EventSourcing.cs:34-35 | rebuilding ignores the previous names, so rebuilding twice from one log equals rebuilding once |
| EventSourcing.HandleExtendsCatalogue | Es_Architetture/EventSourcing.cs:23-35 | after a successful command the rebuilt catalogue gains exactly the command's name at the end |
| EventSourcing.Demo | Es_Architetture/EventSourcing.cs:45-50 | handling "Pane" and then "Latte" rebuilds to the catalogue ["Pane", "Latte"] |
| EventDriven.TypeOf | Es_Architetture/Event-Driven.cs:22 | an event's runtime type is never the interface, and is ProdottoAggiunto exactly for that record |
| EventDriven.Subscribe | Es_Architetture/Event-Driven.cs:13-18 | the tag's list is created on first use and gets the handler at the end; duplicates are kept; other tags are untouched |
| EventDriven.Publish | Es_Architetture/Event-Driven.cs:20-25 | every handler registered under the exact type is invoked once, in registration order; none when nothing is registered |
| EventDriven.SubscribeThenPublish | Es_Architetture/Event-Driven.cs:13-25 | subscribing under the event's type adds one delivery at the end; under another type, including the interface, it changes nothing |
| EventDriven.WrapInt32 | Es_Architetture/Event-Driven.cs:30-31 | the result is in the Int32 range, congruent to the input modulo 2^32 (so it wraps rather than clamps), and equals the input when the input is in range |
| EventDriven.OnProdottoAggiunto | Es_Architetture/Event-Driven.cs:31 | the count grows by one, wrapping from int.MaxValue to int.MinValue |
| EventDriven.DeliverCounts | Es_Architetture/Event-Driven.cs:24-31 | after any deliveries the count has grown by the number of ProdottoAggiunto deliveries to the read model, modulo 2^32 |
| EventDriven.PublishReaches | Es_Architetture/Event-Driven.cs:20-25 | one publish reaches the read model once per subscription of it under the event's type |
| EventDriven.Demo | Es_Architetture/Event-Driven.cs:38-45 | one subscription and two publishes give a count of 2 |
| Layered.NewProdotto | Es_Architetture/Layered.cs:11 | a null name throws ArgumentNull; any other name, blank ones included, is kept as given |
| Layered.Add | Es_Architetture/Layered.cs:24 | the product goes at the end and the earlier products are unchanged |
| Layered.Crea | Es_Architetture/Layered.cs:37 | a null name throws ArgumentNull and stores nothing; otherwise the list gains a product with the name at the end |
| Layered.CreaAllAppends | Es_Architetture/Layered.cs:22-37 | a sequence of creations succeeds exactly when no name is null, and then the list is the old list followed by the names in call order |
| Layered.Demo | Es_Architetture/Layered.cs:44-49 | the store starts as ["Pane"] and becomes ["Pane", "Latte"] |
| Hexagonal.Save | Es_Architetture/Esagonale.cs:34 | the name, even null or a duplicate, goes at the end and the earlier names are unchanged |
| Hexagonal.CreatedMessage | Es_Architetture/Esagonale.cs:21 | the message is "Creato: " followed by the name, or by nothing for a null name |
| Hexagonal.Crea | Es_Architetture/Esagonale.cs:21 | the name is saved at the end, and the port calls are one save and then one log message |
| Hexagonal.CreaLogsOnce | Es_Architetture/Esagonale.cs:21 | one creation adds exactly its own message to the log |
| Hexagonal.CreaAllAppends | Es_Architetture/Esagonale.cs:22-35 | after any creations the list is the old list followed by the names in call order |
| Hexagonal.CreaAllLogs | Es_Architetture/Esagonale.cs:21 | after any creations the log has gained exactly one "Creato: " message per creation, in call order |
| Hexagonal.Demo | Es_Architetture/Esagonale.cs:46-51 | the repository starts as ["Pane"]; creating "Latte" saves it and logs "Creato: Latte" |

## Left out

- Console input and output: prompts, `ReadLine`, `ReadKey`, and message formatting (`{x:0.00}`, `P0`). Parsed
  input becomes a parameter: the entry loop's code and quantity lines, the payment program's menu choice and
  amount, and the yes/no answers (as booleans).
- The Microsoft dependency-injection container of `ES_Ntier.cs`. It is a foreign library; the model wires the
  services directly.
- The `Lazy<T>` configuration singletons. Thread-safe creation is concurrency, so the configuration is the
  `TaxRate` constant. `Currency` only feeds console output and is not modelled.
- Null customers and product names in the N-tier programs. `CreateProduct(code, null, price)` and a null
  `ReadLine()` customer passed to `new Order(cliente)` are accepted in C#, but those strings are only printed, so the
  model keeps them as plain strings.
- `Guid.NewGuid()` and `DateTime.UtcNow` are inputs: an order id, the 32 hex digits of a Guid, a timestamp.
  `NtierApplication.CreateOrder` requires the id to be fresh, which a new Guid is in practice.
- The notifications sent by `OrderService.CreateOrder`, `Checkout`, `Ship` and `Cancel`, and the console logger and
  sinks. They only print. The payment service's log and notifications, and the hexagonal log port, are recorded as
  traces.
- `List()` of the repositories and services. They only enumerate, and `Dictionary` enumeration order is not
  specified.
- Amounts with more than two decimal places. All amounts are whole cents, so the payment program's parsed amount is
  assumed to have at most two decimals. Decimal overflow (beyond about 7.9 × 10^28) is not modelled.
- `int` quantities are unbounded integers. A subtotal of a quantity near `int.MaxValue` is computed in `decimal` in
  C#, so no wrap-around applies there.
- `OrdinalIgnoreCase` folds only ASCII letters in the model. The .NET comparison also folds non-ASCII letters; every
  code in the programs is ASCII.
- `EventSourcing`: a `ProdottoCreato` record with a null name, built outside `Handle`, is not modelled. Other `IEvent`
  classes are one opaque constructor.
- Null references passed where the code dereferences them: a null event given to `EventStore.Append` or
  `EventBus.Publish`, or a null command given to `CommandHandler.Handle`, throws NullReferenceException in C#.
  Events and commands in the model are values and cannot be null.
- `EventDriven`: the bus's handler wrappers and the `(T)e` cast. Dispatch is by exact type, so the cast cannot fail.
  Handlers other than the read model are ids whose effect is not modelled.
- `Layered`: `IProdottoStore` has one implementation, `InMemoryStore`, and only that is modelled.
- The files `Microservice.cs`, `SOA.cs`, `Monolitica.cs`, `ES_presentation_easy.cs` and `ES_main.cs`. They print
  fixed data, drive a demo, or only declare types.
- Payments.RunProgram: the payment program's `Main` only from the parsed input on. Reading and parsing the console
  lines is left out.

=== FILE: event_driven.dfy ===
/** The event-driven exercise: an event bus maps an event's exact runtime type
    to the handlers subscribed for it; publishing invokes them in subscription
    order. A read model counts the `ProdottoAggiunto` events it receives. */
module EventDriven {
  import Money

  /** The `Type` keys of the bus. `IEventTag` is `typeof(IEvent)`: a handler can
      be subscribed under it, but no event's runtime type is an interface. */
  datatype TypeTag = IEventTag | ProdottoAggiuntoTag | OtherTag(id: nat)

  /** An `IEvent`: `ProdottoAggiunto`, or an event of some other record class. */
  datatype Event = ProdottoAggiunto(nome: string) | OtherEvent(id: nat)

  /** `e.GetType()`. */
  function TypeOf(e: Event): (t: TypeTag)
    ensures t != IEventTag
    ensures t == ProdottoAggiuntoTag <==> e.ProdottoAggiunto?
  {
    match e
    case ProdottoAggiunto(_) => ProdottoAggiuntoTag
    case OtherEvent(id) => OtherTag(id)
  }

  /** A subscribed `Action<T>`, identified by an opaque id. */
  type HandlerId = nat

  /** `Dictionary<Type, List<Action<IEvent>>>`. */
  type EventBus = map<TypeTag, seq<HandlerId>>

  /** The handlers registered under a tag (none when the tag has no list). */
  function Handlers(bus: EventBus, t: TypeTag): seq<HandlerId> {
    if t in bus then bus[t] else []
  }

  /** `Subscribe<T>`: create the list on first use, then append the handler;
      duplicates are kept and other tags are untouched. */
  function Subscribe(bus: EventBus, t: TypeTag, h: HandlerId): (r: EventBus)
    ensures t in r && r.Keys == bus.Keys + {t}
    ensures Handlers(r, t) == Handlers(bus, t) + [h]
    ensures forall u :: u != t ==> Handlers(r, u) == Handlers(bus, u)
  {
    var hs := if t in bus then bus[t] else [];
    bus[t := hs + [h]]
  }

  /** One handler invocation. */
  datatype Delivery = Delivery(handler: HandlerId, event: Event)

  /** `Publish`: every handler registered for the event's exact type, once, in
      subscription order; nothing when none is registered. */
  function Publish(bus: EventBus, e: Event): (ds: seq<Delivery>)
    ensures |ds| == |Handlers(bus, TypeOf(e))|
    ensures forall i :: 0 <= i < |ds| ==> ds[i] == Delivery(Handlers(bus, TypeOf(e))[i], e)
  {
    var hs := Handlers(bus, TypeOf(e));
    seq(|hs|, i requires 0 <= i < |hs| => Delivery(hs[i], e))
  }

  /** Subscribing under another tag does not change what an event reaches;
      subscribing under its own tag adds one delivery at the end. Handlers
      subscribed under `typeof(IEvent)` never run. */
  lemma SubscribeThenPublish(bus: EventBus, t: TypeTag, h: HandlerId, e: Event)
    ensures t != TypeOf(e) ==> Publish(Subscribe(bus, t, h), e) == Publish(bus, e)
    ensures t == TypeOf(e) ==> Publish(Subscribe(bus, t, h), e) == Publish(bus, e) + [Delivery(h, e)]
    ensures t == IEventTag ==> Publish(Subscribe(bus, t, h), e) == Publish(bus, e)
  {
  }

  /** Signed 32-bit wrap-around of C# `int` arithmetic (unchecked by default). */
  function WrapInt32(x: int): (r: int)
    ensures -0x8000_0000 <= r < 0x8000_0000
    ensures -0x8000_0000 <= x < 0x8000_0000 ==> r == x
    ensures (x - r) % 0x1_0000_0000 == 0
  {
    (x + 0x8000_0000) % 0x1_0000_0000 - 0x8000_0000
  }

  type Int32 = x: int | -0x8000_0000 <= x < 0x8000_0000

  /** `InventarioReadModel`. */
  datatype InventarioReadModel = InventarioReadModel(conteggio: Int32)

  const EmptyInventory: InventarioReadModel := InventarioReadModel(0)

  /** `OnProdottoAggiunto`: `Conteggio++`, wrapping from int.MaxValue to int.MinValue. */
  function OnProdottoAggiunto(m: InventarioReadModel, ev: Event): (r: InventarioReadModel)
    requires ev.ProdottoAggiunto?
    ensures m.conteggio < 0x7FFF_FFFF ==> r.conteggio == m.conteggio + 1
    ensures m.conteggio == 0x7FFF_FFFF ==> r.conteggio == -0x8000_0000
  {
    InventarioReadModel(WrapInt32(m.conteggio + 1))
  }

  /** The effect of deliveries on the read model subscribed as handler `h`:
      each delivery to `h` of a `ProdottoAggiunto` runs `OnProdottoAggiunto`. */
  function Deliver(m: InventarioReadModel, h: HandlerId, ds: seq<Delivery>): InventarioReadModel
    decreases |ds|
  {
    if |ds| == 0 then m
    else
      var m' := if ds[0].handler == h && ds[0].event.ProdottoAggiunto? then OnProdottoAggiunto(m, ds[0].event) else m;
      Deliver(m', h, ds[1..])
  }

  /** How many deliveries reach `h` with a `ProdottoAggiunto`. */
  function Received(h: HandlerId, ds: seq<Delivery>): nat
    decreases |ds|
  {
    if |ds| == 0 then 0
    else (if ds[0].handler == h && ds[0].event.ProdottoAggiunto? then 1 else 0) + Received(h, ds[1..])
  }

  /** Wrapping commutes with adding. */
  lemma WrapAdd(a: int, n: int)
    ensures WrapInt32(WrapInt32(a) + n) == WrapInt32(a + n)
  {
    var k := 0x1_0000_0000;
    var b := 0x8000_0000;
    assert WrapInt32(a) + b == (a + b) % k;
    assert (a + b) % k + n == (a + b + n) - ((a + b) / k) * k;
    ModShift(a + b + n, (a + b) / k, k);
  }

  /** Removing whole multiples of k does not change the remainder. */
  lemma ModShift(x: int, q: int, k: int)
    requires k > 0
    ensures (x - q * k) % k == x % k
  {
    var y := x - q * k;
    var a := y / k + q;
    var b := x / k;
    assert (y / k) * k + q * k == a * k;
    assert a * k + y % k == x;
    assert b * k + x % k == x;
    Money.MultiplesClose(a, b, k);
  }

  /** The count grows by exactly the number of `ProdottoAggiunto` deliveries to
      the read model, modulo 2^32. */
  lemma {:induction false} DeliverCounts(m: InventarioReadModel, h: HandlerId, ds: seq<Delivery>)
    ensures Deliver(m, h, ds).conteggio == WrapInt32(m.conteggio + Received(h, ds))
    decreases |ds|
  {
    if |ds| == 0 {
    } else {
      var m' := if ds[0].handler == h && ds[0].event.ProdottoAggiunto? then OnProdottoAggiunto(m, ds[0].event) else m;
      DeliverCounts(m', h, ds[1..]);
      if ds[0].handler == h && ds[0].event.ProdottoAggiunto? {
        WrapAdd(m.conteggio + 1, Received(h, ds[1..]));
      }
    }
  }

  /** How many times `h` occurs in a handler list. */
  function Occurrences(hs: seq<HandlerId>, h: HandlerId): nat
    decreases |hs|
  {
    if |hs| == 0 then 0 else (if hs[0] == h then 1 else 0) + Occurrences(hs[1..], h)
  }

  /** Publishing a `ProdottoAggiunto` delivers it to the read model once per
      subscription of the read model under its type. */
  lemma PublishReaches(bus: EventBus, h: HandlerId, e: Event)
    requires e.ProdottoAggiunto?
    ensures Received(h, Publish(bus, e)) == Occurrences(Handlers(bus, ProdottoAggiuntoTag), h)
  {
    ReceivedOccurrences(Handlers(bus, ProdottoAggiuntoTag), h, e);
  }

  lemma {:induction false} ReceivedOccurrences(hs: seq<HandlerId>, h: HandlerId, e: Event)
    requires e.ProdottoAggiunto?
    ensures Received(h, seq(|hs|, i requires 0 <= i < |hs| => Delivery(hs[i], e))) == Occurrences(hs, h)
    decreases |hs|
  {
    var ds := seq(|hs|, i requires 0 <= i < |hs| => Delivery(hs[i], e));
    if |hs| > 0 {
      ReceivedOccurrences(hs[1..], h, e);
      assert ds[1..] == seq(|hs[1..]|, i requires 0 <= i < |hs[1..]| => Delivery(hs[1..][i], e));
    }
  }

  /** The program: the read model (handler 0) subscribes to ProdottoAggiunto,
      "Pane" and "Latte" are published, and the count is 2. */
  lemma Demo()
    ensures
      var bus := Subscribe(map[], ProdottoAggiuntoTag, 0);
      var m1 := Deliver(EmptyInventory, 0, Publish(bus, ProdottoAggiunto("Pane")));
      Deliver(m1, 0, Publish(bus, ProdottoAggiunto("Latte"))).conteggio == 2
  {
    var bus := Subscribe(map[], ProdottoAggiuntoTag, 0);
    assert Handlers(bus, ProdottoAggiuntoTag) == [0];
    var m1 := Deliver(EmptyInventory, 0, Publish(bus, ProdottoAggiunto("Pane")));
    DeliverCounts(EmptyInventory, 0, Publish(bus, ProdottoAggiunto("Pane")));
    PublishReaches(bus, 0, ProdottoAggiunto("Pane"));
    DeliverCounts(m1, 0, Publish(bus, ProdottoAggiunto("Latte")));
    PublishReaches(bus, 0, ProdottoAggiunto("Latte"));
  }
}

=== FILE: event_sourcing.dfy ===
/** The event-sourcing / CQRS exercise: a command handler validates a command
    and appends an event to an append-only store; a read model is rebuilt as a
    projection of the whole log. */
module EventSourcing {
  import opened Outcomes
  import opened Text

  /** `DateTime.UtcNow`, an opaque instant. */
  type Timestamp = int

  /** An `IEvent`: `ProdottoCreato`, or an event of any other class. */
  datatype Event = ProdottoCreato(nome: string, when: Timestamp) | OtherEvent(when: Timestamp)

  /** `EventStore`: the events in append order. */
  datatype EventStore = EventStore(events: seq<Event>)

  const EmptyStore: EventStore := EventStore([])

  /** `EventStore.Append`: the event goes at the end, nothing else changes. */
  function Append(store: EventStore, e: Event): (r: EventStore)
    ensures |r.events| == |store.events| + 1
    ensures r.events[..|store.events|] == store.events
    ensures r.events[|store.events|] == e
  {
    EventStore(store.events + [e])
  }

  /** `EventStore.All`: the log in append order. */
  function All(store: EventStore): seq<Event> {
    store.events
  }

  /** A sequence of appends, in order. */
  function AppendAll(store: EventStore, es: seq<Event>): EventStore
    decreases |es|
  {
    if |es| == 0 then store else AppendAll(Append(store, es[0]), es[1..])
  }

  /** The store is append-only: after any appends, `All` is the old log followed
      by the appended events in the order they were appended. */
  lemma {:induction false} AppendOnly(store: EventStore, es: seq<Event>)
    ensures All(AppendAll(store, es)) == All(store) + es
    decreases |es|
  {
    if |es| == 0 {
      assert All(store) + es == All(store);
    } else {
      AppendOnly(Append(store, es[0]), es[1..]);
      assert All(store) + es == (All(store) + [es[0]]) + es[1..];
    }
  }

  /** `CreaProdottoCommand`, whose `Nome` may be set to null. */
  datatype CreaProdottoCommand = CreaProdottoCommand(nome: NullableString)

  /** `CommandHandler.Handle`: a null or blank name throws ArgumentException and
      the store is left as it was; otherwise one `ProdottoCreato` with the name,
      stamped `now`, is appended. */
  function Handle(store: EventStore, cmd: CreaProdottoCommand, now: Timestamp): (r: Result<EventStore>)
    ensures r.Err? <==> IsNullOrWhiteSpace(cmd.nome)
    ensures r.Err? ==> r.fault == InvalidArgument
    ensures r.Ok? ==> r.value == Append(store, ProdottoCreato(cmd.nome.value, now))
  {
    if IsNullOrWhiteSpace(cmd.nome) then Err(InvalidArgument)
    else Ok(Append(store, ProdottoCreato(cmd.nome.value, now)))
  }

  /** `events.OfType<ProdottoCreato>().Select(e => e.Nome)`: the names of the
      product-created events, in log order. */
  function Project(events: seq<Event>): (names: seq<string>)
    ensures |names| <= |events|
    ensures forall n :: n in names <==> exists i :: 0 <= i < |events| && events[i].ProdottoCreato? && events[i].nome == n
    decreases |events|
  {
    if |events| == 0 then []
    else
      var rest := Project(events[1..]);
      assert forall i :: 1 <= i < |events| ==> events[i] == events[1..][i - 1];
      match events[0]
      case ProdottoCreato(n, _) => [n] + rest
      case OtherEvent(_) => rest
  }

  /** The projection of a concatenated log is the concatenation of the projections. */
  lemma {:induction false} ProjectConcat(a: seq<Event>, b: seq<Event>)
    ensures Project(a + b) == Project(a) + Project(b)
    decreases |a|
  {
    if |a| == 0 {
      assert a + b == b;
    } else {
      assert (a + b)[1..] == a[1..] + b;
      ProjectConcat(a[1..], b);
    }
  }

  /** `CatalogoReadModel`: the projected names. */
  datatype CatalogoReadModel = CatalogoReadModel(nomi: seq<string>)

  const EmptyCatalogue: CatalogoReadModel := CatalogoReadModel([])

  /** `Rebuild`: the names are replaced by the projection of the log; a name is in
      the rebuilt catalogue exactly when some product-created event carries it. */
  function Rebuild(model: CatalogoReadModel, events: seq<Event>): (r: CatalogoReadModel)
    ensures |r.nomi| <= |events|
    ensures forall n :: n in r.nomi <==> exists i :: 0 <= i < |events| && events[i].ProdottoCreato? && events[i].nome == n
  {
    CatalogoReadModel(Project(events))
  }

  /** Rebuilding forgets the previous names, so rebuilding twice from the same
      log is the same as rebuilding once, from whatever model. */
  lemma RebuildReplaces(m1: CatalogoReadModel, m2: CatalogoReadModel, events: seq<Event>)
    ensures Rebuild(m1, events) == Rebuild(m2, events)
    ensures Rebuild(Rebuild(m1, events), events) == Rebuild(m1, events)
  {
  }

  /** A successful command adds its name at the end of the rebuilt catalogue. */
  lemma HandleExtendsCatalogue(store: EventStore, cmd: CreaProdottoCommand, now: Timestamp, m: CatalogoReadModel)
    requires Handle(store, cmd, now).Ok?
    ensures Rebuild(m, All(Handle(store, cmd, now).value)).nomi == Rebuild(m, All(store)).nomi + [cmd.nome.value]
  {
    var e := ProdottoCreato(cmd.nome.value, now);
    ProjectConcat(store.events, [e]);
    assert Project([e]) == [e.nome] + Project([e][1..]);
  }

  /** The program: handle "Pane" then "Latte", rebuild, and the catalogue is
      ["Pane", "Latte"]. */
  lemma Demo(t1: Timestamp, t2: Timestamp)
    ensures Handle(EmptyStore, CreaProdottoCommand(Some("Pane")), t1).Ok?
    ensures
      var s1 := Handle(EmptyStore, CreaProdottoCommand(Some("Pane")), t1).value;
      Handle(s1, CreaProdottoCommand(Some("Latte")), t2).Ok?
      && Rebuild(EmptyCatalogue, All(Handle(s1, CreaProdottoCommand(Some("Latte")), t2).value)).nomi == ["Pane", "Latte"]
  {
    assert !IsWhiteSpace("Pane"[0]);
    assert !IsWhiteSpace("Latte"[0]);
    var s1 := Handle(EmptyStore, CreaProdottoCommand(Some("Pane")), t1).value;
    HandleExtendsCatalogue(EmptyStore, CreaProdottoCommand(Some("Pane")), t1, EmptyCatalogue);
    HandleExtendsCatalogue(s1, CreaProdottoCommand(Some("Latte")), t2, EmptyCatalogue);
  }
}

=== FILE: hexagonal.dfy ===
/** The hexagonal-architecture exercise: a use case talks to two ports, a
    repository of names and a log. The in-memory repository adapter is seeded
    with "Pane"; the console logger adapter is recorded as the sequence of
    `Save` and `Info` calls the use case makes (the read-only `All` call of
    `Elenca` is not recorded). */
module Hexagonal {
  import opened Outcomes
  import opened Text

  /** `InMemoryRepo`: the saved names in order; a null name is saved too. */
  datatype InMemoryRepo = InMemoryRepo(db: seq<NullableString>)

  /** A new repository holds exactly "Pane". */
  const InitialRepo: InMemoryRepo := InMemoryRepo([Some("Pane")])

  /** `InMemoryRepo.All`. */
  function All(repo: InMemoryRepo): seq<NullableString> {
    repo.db
  }

  /** `InMemoryRepo.Save`: appended at the end with no validation and no
      deduplication. */
  function Save(repo: InMemoryRepo, nome: NullableString): (r: InMemoryRepo)
    ensures |All(r)| == |All(repo)| + 1
    ensures All(r)[..|All(repo)|] == All(repo)
    ensures All(r)[|All(repo)|] == nome
  {
    InMemoryRepo(repo.db + [nome])
  }

  /** A call the use case makes on one of its ports. */
  datatype PortCall = Saved(nome: NullableString) | Logged(msg: string)

  /** `ProdottoUseCase` wired to the in-memory repository; `calls` records the
      `Save` and `Info` port calls in the order they were made. */
  datatype ProdottoUseCase = ProdottoUseCase(repo: InMemoryRepo, calls: seq<PortCall>)

  const InitialUseCase: ProdottoUseCase := ProdottoUseCase(InitialRepo, [])

  /** `$"Creato: {nome}"`: a null name interpolates as the empty string. */
  function CreatedMessage(nome: NullableString): (msg: string)
    ensures |msg| >= 8 && msg[..8] == "Creato: "
    ensures nome.Some? ==> msg[8..] == nome.value
    ensures nome.None? ==> |msg| == 8
  {
    "Creato: " + (if nome.Some? then nome.value else "")
  }

  /** `ProdottoUseCase.Crea`: save the name, then log exactly one message. */
  function Crea(uc: ProdottoUseCase, nome: NullableString): (r: ProdottoUseCase)
    ensures All(r.repo) == All(uc.repo) + [nome]
    ensures r.calls == uc.calls + [Saved(nome), Logged(CreatedMessage(nome))]
  {
    ProdottoUseCase(Save(uc.repo, nome), uc.calls + [Saved(nome), Logged(CreatedMessage(nome))])
  }

  /** `ProdottoUseCase.Elenca`: the repository's names. */
  function Elenca(uc: ProdottoUseCase): seq<NullableString> {
    All(uc.repo)
  }

  /** A sequence of `Crea` calls. */
  function CreaAll(uc: ProdottoUseCase, names: seq<NullableString>): ProdottoUseCase
    decreases |names|
  {
    if |names| == 0 then uc else CreaAll(Crea(uc, names[0]), names[1..])
  }

  /** Only the log messages among the port calls. */
  function LogMessages(calls: seq<PortCall>): seq<string>
    decreases |calls|
  {
    if |calls| == 0 then []
    else (if calls[0].Logged? then [calls[0].msg] else []) + LogMessages(calls[1..])
  }

  lemma {:induction false} LogMessagesConcat(a: seq<PortCall>, b: seq<PortCall>)
    ensures LogMessages(a + b) == LogMessages(a) + LogMessages(b)
    decreases |a|
  {
    if |a| == 0 {
      assert a + b == b;
    } else {
      assert (a + b)[1..] == a[1..] + b;
      LogMessagesConcat(a[1..], b);
    }
  }

  /** The message `Crea` logs for each name, in order. */
  function CreatedMessages(names: seq<NullableString>): (msgs: seq<string>)
    ensures |msgs| == |names|
    ensures forall i :: 0 <= i < |names| ==> msgs[i] == CreatedMessage(names[i])
  {
    seq(|names|, i requires 0 <= i < |names| => CreatedMessage(names[i]))
  }

  /** One `Crea` call logs exactly its own message. */
  lemma CreaLogsOnce(uc: ProdottoUseCase, nome: NullableString)
    ensures LogMessages(Crea(uc, nome).calls) == LogMessages(uc.calls) + [CreatedMessage(nome)]
  {
    var pair := [Saved(nome), Logged(CreatedMessage(nome))];
    LogMessagesConcat(uc.calls, pair);
    assert pair[1..][1..] == [];
    assert LogMessages(pair[1..]) == [CreatedMessage(nome)];
  }

  /** After any sequence of `Crea` calls, `Elenca` is the old list followed by
      the names in call order. */
  lemma {:induction false} CreaAllAppends(uc: ProdottoUseCase, names: seq<NullableString>)
    ensures Elenca(CreaAll(uc, names)) == Elenca(uc) + names
    decreases |names|
  {
    if |names| == 0 {
      assert Elenca(uc) + names == Elenca(uc);
    } else {
      CreaAllAppends(Crea(uc, names[0]), names[1..]);
      assert Elenca(uc) + names == (Elenca(uc) + [names[0]]) + names[1..];
    }
  }

  /** A log followed by the messages of a non-empty name list is the log
      followed by the first name's message, then by the rest. */
  lemma CreatedMessagesCons(log: seq<string>, names: seq<NullableString>)
    requires |names| > 0
    ensures log + CreatedMessages(names) == (log + [CreatedMessage(names[0])]) + CreatedMessages(names[1..])
  {
    assert CreatedMessages(names) == [CreatedMessage(names[0])] + CreatedMessages(names[1..]);
  }

  /** After any sequence of `Crea` calls, the log gained exactly one
      "Creato: " message per call, in call order. */
  lemma {:induction false} CreaAllLogs(uc: ProdottoUseCase, names: seq<NullableString>)
    ensures LogMessages(CreaAll(uc, names).calls) == LogMessages(uc.calls) + CreatedMessages(names)
    decreases |names|
  {
    var before := LogMessages(uc.calls);
    if |names| == 0 {
      assert before + CreatedMessages(names) == before;
    } else {
      CreaAllLogs(Crea(uc, names[0]), names[1..]);
      CreaLogsOnce(uc, names[0]);
      CreatedMessagesCons(before, names);
    }
  }

  /** The program: list ["Pane"], then create "Latte", which logs "Creato: Latte". */
  lemma Demo()
    ensures Elenca(InitialUseCase) == [Some("Pane")]
    ensures Elenca(Crea(InitialUseCase, Some("Latte"))) == [Some("Pane"), Some("Latte")]
    ensures Crea(InitialUseCase, Some("Latte")).calls == [Saved(Some("Latte")), Logged("Creato: Latte")]
  {
    assert CreatedMessage(Some("Latte")) == "Creato: Latte";
  }
}

=== FILE: layered.dfy ===
/** The layered-architecture exercise: a domain entity, an in-memory store
    seeded with "Pane", and an application service that lists and creates
    products through the store. */
module Layered {
  import opened Outcomes
  import opened Text

  /** Domain: `Prodotto`. */
  datatype Prodotto = Prodotto(nome: string)

  /** `new Prodotto(nome)`: a null name throws ArgumentNullException; any
      non-null name, blank ones included, is accepted as is. */
  function NewProdotto(nome: NullableString): (r: Result<Prodotto>)
    ensures r.Err? <==> nome.None?
    ensures r.Err? ==> r.fault == ArgumentNull
    ensures r.Ok? ==> r.value.nome == nome.value
  {
    match nome
    case None => Err(ArgumentNull)
    case Some(n) => Ok(Prodotto(n))
  }

  /** Infrastructure: `InMemoryStore`, the products in insertion order. */
  datatype InMemoryStore = InMemoryStore(db: seq<Prodotto>)

  /** A new store holds exactly one product, "Pane". */
  const InitialStore: InMemoryStore := InMemoryStore([Prodotto("Pane")])

  /** `InMemoryStore.All`. */
  function All(store: InMemoryStore): seq<Prodotto> {
    store.db
  }

  /** `InMemoryStore.Add`: appended at the end, nothing else changes. */
  function Add(store: InMemoryStore, p: Prodotto): (r: InMemoryStore)
    ensures |All(r)| == |All(store)| + 1
    ensures All(r)[..|All(store)|] == All(store)
    ensures All(r)[|All(store)|] == p
  {
    InMemoryStore(store.db + [p])
  }

  /** Application: `ProdottoApp.Elenca`, the store's products. */
  function Elenca(store: InMemoryStore): seq<Prodotto> {
    All(store)
  }

  /** `ProdottoApp.Crea`: construct the product (which may throw), then add it. */
  function Crea(store: InMemoryStore, nome: NullableString): (r: Result<InMemoryStore>)
    ensures r.Err? <==> nome.None?
    ensures r.Err? ==> r.fault == ArgumentNull
    ensures r.Ok? ==> Elenca(r.value) == Elenca(store) + [Prodotto(nome.value)]
  {
    var p :- NewProdotto(nome);
    Ok(Add(store, p))
  }

  /** A sequence of `Crea` calls, stopping at the first exception. */
  function CreaAll(store: InMemoryStore, names: seq<NullableString>): Result<InMemoryStore>
    decreases |names|
  {
    if |names| == 0 then Ok(store)
    else
      var s :- Crea(store, names[0]);
      CreaAll(s, names[1..])
  }

  /** Creating a list of names from any store succeeds exactly when none of them
      is null, and then lists the old products followed by the new names in
      call order. From a new store the list starts with "Pane". */
  lemma {:induction false} CreaAllAppends(store: InMemoryStore, names: seq<NullableString>)
    ensures CreaAll(store, names).Ok? <==> forall i :: 0 <= i < |names| ==> names[i].Some?
    ensures CreaAll(store, names).Ok? ==>
      && |Elenca(CreaAll(store, names).value)| == |Elenca(store)| + |names|
      && Elenca(CreaAll(store, names).value)[..|Elenca(store)|] == Elenca(store)
      && forall i :: 0 <= i < |names| ==> Elenca(CreaAll(store, names).value)[|Elenca(store)| + i] == Prodotto(names[i].value)
    decreases |names|
  {
    if |names| > 0 {
      if names[0].Some? {
        var s := Crea(store, names[0]).value;
        CreaAllAppends(s, names[1..]);
        if CreaAll(store, names).Ok? {
          var r := Elenca(CreaAll(store, names).value);
          assert r[..|Elenca(s)|] == Elenca(s);
          assert r[..|Elenca(store)|] == r[..|Elenca(s)|][..|Elenca(store)|];
          forall i | 0 <= i < |names|
            ensures r[|Elenca(store)| + i] == Prodotto(names[i].value)
          {
            if i == 0 {
              assert r[|Elenca(store)|] == r[..|Elenca(s)|][|Elenca(store)|];
            } else {
              assert names[i] == names[1..][i - 1];
            }
          }
        }
        assert (forall i :: 0 <= i < |names| ==> names[i].Some?) <==>
               (forall i :: 0 <= i < |names[1..]| ==> names[1..][i].Some?);
      }
    }
  }

  /** The program: list ["Pane"], then create "Latte". */
  lemma Demo()
    ensures Elenca(InitialStore) == [Prodotto("Pane")]
    ensures Crea(InitialStore, Some("Latte")).Ok?
    ensures Elenca(Crea(InitialStore, Some("Latte")).value) == [Prodotto("Pane"), Prodotto("Latte")]
  {
  }
}

=== FILE: money.dfy ===
/** Exact decimal money. C# `decimal` is base-10 exact; every amount in the
    modelled programs has at most two decimal places, so an amount is a whole
    number of cents, and a rate such as 0.22 is the decimal fraction 22 / 10^2.
    `Math.Round(d, 2)` rounds to the nearest cent, ties to the even cent. */
module Money {

  /** An amount of money as a whole number of cents (1.50 is 150). */
  type Cents = int

  function Pow10(n: nat): (r: nat)
    ensures r >= 1
  {
    if n == 0 then 1 else 10 * Pow10(n - 1)
  }

  /** The decimal fraction num / 10^scale (0.22 is Rate(22, 2)). */
  datatype Rate = Rate(num: int, scale: nat)

  /** 1 - r, at the same scale. */
  function Complement(r: Rate): Rate {
    Rate(Pow10(r.scale) - r.num, r.scale)
  }

  function Dist(a: int, b: int): nat {
    if a <= b then b - a else a - b
  }

  /** k is n / d rounded to the nearest integer, ties to the even one
      (`MidpointRounding.ToEven`, the default of `Math.Round`). */
  ghost predicate RoundsHalfEven(k: int, n: int, d: int)
    requires d > 0
  {
    && 2 * Dist(k * d, n) <= d
    && (2 * Dist(k * d, n) == d ==> k % 2 == 0)
  }

  /** Round-half-to-even division of n by d. */
  function RoundHalfEven(n: int, d: int): (k: int)
    requires d > 0
    ensures RoundsHalfEven(k, n, d)
  {
    var q := n / d;
    var rem := n % d;
    assert n == q * d + rem;
    assert (q + 1) * d == q * d + d;
    if 2 * rem < d then q
    else if 2 * rem > d then q + 1
    else if q % 2 == 0 then q
    else q + 1
  }

  /** Distributivity and the gap between distinct multiples of a positive d. */
  lemma MulGap(a: int, b: int, d: int)
    requires d > 0
    ensures b * d - a * d == (b - a) * d
    ensures a < b ==> a * d + d <= b * d
    ensures a + 1 < b ==> a * d + 2 * d <= b * d
  {
    var m := b - a;
    assert b * d == (a + m) * d == a * d + m * d;
    if m >= 1 {
      assert m * d == d + (m - 1) * d;
    }
    if m >= 2 {
      assert m * d == 2 * d + (m - 2) * d;
    }
  }

  /** Multiples of d at most d apart are equal or neighbours exactly d apart. */
  lemma MultiplesClose(a: int, b: int, d: int)
    requires d > 0
    requires Dist(a * d, b * d) <= d
    ensures a == b || (Dist(a, b) == 1 && Dist(a * d, b * d) == d)
  {
    MulGap(a, b, d);
    MulGap(b, a, d);
  }

  /** At most one integer rounds n / d half to even: the rounding is fully
      determined by its specification. */
  lemma RoundHalfEvenUnique(k: int, n: int, d: int)
    requires d > 0
    requires RoundsHalfEven(k, n, d)
    ensures k == RoundHalfEven(n, d)
  {
    var r := RoundHalfEven(n, d);
    MultiplesClose(k, r, d);
  }

  /** `Math.Round(x * rate, 2)` for an amount x in cents. */
  function ApplyRate(x: Cents, rate: Rate): (r: Cents)
    ensures RoundsHalfEven(r, x * rate.num, Pow10(rate.scale))
  {
    RoundHalfEven(x * rate.num, Pow10(rate.scale))
  }

  /** Rounding a value that lies in [0, hi * d] gives a result in [0, hi]. */
  lemma RoundedWithin(n: int, d: int, hi: int)
    requires d > 0 && hi >= 0
    requires 0 <= n <= hi * d
    ensures 0 <= RoundHalfEven(n, d) <= hi
  {
    var k := RoundHalfEven(n, d);
    MulGap(k, 0, d);
    MulGap(hi, k, d);
  }

  /** Scaling a non-negative amount by a rate between 0 and 1 gives an amount
      between 0 and the original. */
  lemma ApplyRateWithin(x: Cents, rate: Rate)
    requires x >= 0
    requires 0 <= rate.num <= Pow10(rate.scale)
    ensures 0 <= ApplyRate(x, rate) <= x
  {
    var d := Pow10(rate.scale);
    assert 0 <= x * rate.num <= x * d;
    RoundedWithin(x * rate.num, d, x);
  }

  /** A rate of exactly 1 leaves every amount unchanged. */
  lemma ApplyUnitRate(x: Cents, scale: nat)
    ensures ApplyRate(x, Rate(Pow10(scale), scale)) == x
  {
    var d := Pow10(scale);
    assert x * d == d * x;
    assert RoundsHalfEven(x, x * d, d);
    RoundHalfEvenUnique(x, x * d, d);
  }

  /** Subtotal, tax and total of an order. */
  datatype Totals = Totals(subtotal: Cents, tax: Cents, total: Cents)

  /** `tax = Math.Round(sub * rate, 2)`, `total = sub + tax`. */
  function TotalsFor(sub: Cents, rate: Rate): (t: Totals)
    ensures t.subtotal == sub
    ensures RoundsHalfEven(t.tax, sub * rate.num, Pow10(rate.scale))
    ensures t.total == t.subtotal + t.tax
  {
    var tax := ApplyRate(sub, rate);
    Totals(sub, tax, sub + tax)
  }
}

=== FILE: ntier_application.dfy ===
/** The Infrastructure and Application layers of the N-tier order exercise:
    in-memory repositories, `ProductService` and `OrderService`, and the demo
    flow of the composition root. Both repositories live in one immutable
    `Store`; each service call returns the next store or the exception. */
module NtierApplication {
  import opened Outcomes
  import opened Text
  import opened Money
  import opened NtierDomain

  /** The configuration singleton's VAT rate, 22%. */
  const TaxRate: Rate := Rate(22, 2)

  /** A `Dictionary<string, Product>` built with `StringComparer.OrdinalIgnoreCase`:
      each product is stored under the case-folded form of its code. */
  type ProductRepo = m: map<string, Product> | forall k :: k in m ==> k == FoldCase(m[k].code)
    witness map[]

  /** A `Dictionary<Guid, Order>` whose entries are keyed by the order's id. */
  type OrderRepo = m: map<OrderId, Order> | forall id :: id in m ==> m[id].id == id
    witness map[]

  /** `InMemoryProductRepository.Add`: `_db[product.Code] = product`, which
      inserts the product or overwrites the one stored under an equal-ignoring-case
      code, leaving every other entry in place. */
  function AddProduct(repo: ProductRepo, p: Product): (r: ProductRepo)
    ensures r.Keys == repo.Keys + {FoldCase(p.code)}
    ensures r[FoldCase(p.code)] == p
    ensures forall k :: k in repo && k != FoldCase(p.code) ==> r[k] == repo[k]
  {
    repo[FoldCase(p.code) := p]
  }

  /** `InMemoryProductRepository.GetByCode`, for a non-null code: a found product
      has the same folded key as the code, and nothing is found exactly when no
      stored product has that key. */
  function GetByCode(repo: ProductRepo, code: string): (r: Option<Product>)
    ensures r.Some? ==> r.value in repo.Values && FoldCase(r.value.code) == FoldCase(code)
    ensures r.None? <==> forall p :: p in repo.Values ==> FoldCase(p.code) != FoldCase(code)
  {
    var k := FoldCase(code);
    if k in repo then Some(repo[k]) else None
  }

  /** A product found under a code has a code equal to it ignoring case. */
  lemma GetByCodeMatches(repo: ProductRepo, code: string)
    ensures GetByCode(repo, code).Some? ==> EqualsIgnoreCase(GetByCode(repo, code).value.code, code)
    ensures GetByCode(repo, code).Some? ==> GetByCode(repo, code).value in repo.Values
  {
    if GetByCode(repo, code).Some? {
      FoldCaseIsIgnoreCase(GetByCode(repo, code).value.code, code);
    }
  }

  /** Adding a product makes its code (in any case) find it and leaves every
      other code's lookup as it was. */
  lemma AddThenGet(repo: ProductRepo, p: Product, code: string)
    ensures GetByCode(AddProduct(repo, p), code) ==
      if EqualsIgnoreCase(code, p.code) then Some(p) else GetByCode(repo, code)
  {
    FoldCaseIsIgnoreCase(code, p.code);
  }

  /** The repository after a sequence of `Add` calls on an empty one. */
  function BuildRepo(adds: seq<Product>): ProductRepo
    decreases |adds|
  {
    if |adds| == 0 then map[] else AddProduct(BuildRepo(adds[..|adds| - 1]), adds[|adds| - 1])
  }

  /** Reference semantics of a case-insensitive dictionary: the most recently
      added product whose code equals the requested one ignoring case. */
  function LastMatch(adds: seq<Product>, code: string): Option<Product>
    decreases |adds|
  {
    if |adds| == 0 then None
    else if EqualsIgnoreCase(adds[|adds| - 1].code, code) then Some(adds[|adds| - 1])
    else LastMatch(adds[..|adds| - 1], code)
  }

  /** The keyed repository agrees with the reference semantics on every history
      and every code: lookup ignores case, and a re-added code overwrites. */
  lemma {:induction false} RepoIsLastMatch(adds: seq<Product>, code: string)
    ensures GetByCode(BuildRepo(adds), code) == LastMatch(adds, code)
    decreases |adds|
  {
    if |adds| > 0 {
      var last := adds[|adds| - 1];
      RepoIsLastMatch(adds[..|adds| - 1], code);
      AddThenGet(BuildRepo(adds[..|adds| - 1]), last, code);
      IgnoreCaseEquivalence(code, last.code, code);
    }
  }

  /** `ProductService.CreateProduct`: a null or blank code throws ArgumentException;
      otherwise the product is added, replacing any product whose code is equal
      ignoring case. */
  function CreateProduct(repo: ProductRepo, code: NullableString, name: string, price: Cents): (r: Result<ProductRepo>)
    ensures r.Err? <==> IsNullOrWhiteSpace(code)
    ensures r.Err? ==> r.fault == InvalidArgument
    ensures r.Ok? ==> GetByCode(r.value, code.value) == Some(Product(code.value, name, price))
    ensures r.Ok? ==> forall c :: !EqualsIgnoreCase(c, code.value) ==> GetByCode(r.value, c) == GetByCode(repo, c)
  {
    if IsNullOrWhiteSpace(code) then Err(InvalidArgument)
    else
      var p := Product(code.value, name, price);
      assert EqualsIgnoreCase(code.value, p.code);
      AddThenGet(repo, p, code.value);
      forall c | !EqualsIgnoreCase(c, code.value)
        ensures GetByCode(AddProduct(repo, p), c) == GetByCode(repo, c)
      {
        AddThenGet(repo, p, c);
      }
      Ok(AddProduct(repo, p))
  }

  /** `ProductService.Require`: the product stored under the code; a null code
      throws ArgumentNullException (from the dictionary) and an unknown code
      InvalidOperationException. */
  function Require(repo: ProductRepo, code: NullableString): (r: Result<Product>)
    ensures code.None? ==> r == Err(ArgumentNull)
    ensures code.Some? ==> (r.Ok? <==> GetByCode(repo, code.value).Some?)
    ensures code.Some? && r.Err? ==> r.fault == InvalidOperation
    ensures r.Ok? ==> r.value == GetByCode(repo, code.value).value
    ensures r.Ok? ==> EqualsIgnoreCase(r.value.code, code.value) && r.value in repo.Values
  {
    match code
    case None => Err(ArgumentNull)
    case Some(c) =>
      GetByCodeMatches(repo, c);
      match GetByCode(repo, c)
      case Some(p) => Ok(p)
      case None => Err(InvalidOperation)
  }

  /** The state behind the two repositories. */
  datatype Store = Store(products: ProductRepo, orders: OrderRepo)

  /** `_orders.GetById(id) ?? throw new InvalidOperationException(...)`. */
  function FindOrder(s: Store, id: OrderId): (r: Result<Order>)
    ensures r.Ok? <==> id in s.orders
    ensures r.Err? ==> r.fault == InvalidOperation
    ensures r.Ok? ==> r.value.id == id && r.value in s.orders.Values
  {
    if id in s.orders then Ok(s.orders[id]) else Err(InvalidOperation)
  }

  /** `_orders.Update(o)` (and `Add`): store the order under its own id. */
  function PutOrder(s: Store, o: Order): Store {
    s.(orders := s.orders[o.id := o])
  }

  /** The store differs from `s` only in the order under `id`, which is `o`. */
  predicate OnlyOrderChanged(s: Store, s': Store, id: OrderId, o: Order) {
    && s'.products == s.products
    && s'.orders.Keys == s.orders.Keys + {id}
    && id in s'.orders && s'.orders[id] == o
    && forall j :: j in s.orders && j != id ==> j in s'.orders && s'.orders[j] == s.orders[j]
  }

  /** `OrderService.CreateOrder`; the id is the fresh `Guid` of the new order. */
  function CreateOrder(s: Store, id: OrderId, customer: string): (r: Store)
    requires id !in s.orders
    ensures OnlyOrderChanged(s, r, id, NewOrder(id, customer))
    ensures r.orders.Keys == s.orders.Keys + {id}
  {
    PutOrder(s, NewOrder(id, customer))
  }

  /** Apply an `Order` call to a stored order and store the result. */
  function UpdateOrder(s: Store, id: OrderId, c: Command): (r: Result<Store>)
    ensures r.Ok? <==> id in s.orders && Step(s.orders[id], c).Ok?
    ensures r.Err? ==> r.fault == (if id in s.orders then Step(s.orders[id], c).fault else InvalidOperation)
    ensures r.Ok? ==> OnlyOrderChanged(s, r.value, id, Step(s.orders[id], c).value)
  {
    var o :- FindOrder(s, id);
    var o' :- Step(o, c);
    StepKeepsId(o, c);
    Ok(PutOrder(s, o'))
  }

  /** A call keeps the order's id. */
  lemma StepKeepsId(o: Order, c: Command)
    ensures Step(o, c).Ok? ==> Step(o, c).value.id == o.id
  {
  }

  /** `OrderService.AddItem`: an unknown order throws InvalidOperationException
      before the product is looked up; then `Require`; then `Order.AddItem`.
      Nothing changes unless all three succeed. */
  function OrderAddItem(s: Store, id: OrderId, code: NullableString, qty: int): (r: Result<Store>)
    ensures id !in s.orders ==> r == Err(InvalidOperation)
    ensures id in s.orders && Require(s.products, code).Err? ==> r == Err(Require(s.products, code).fault)
    ensures r.Ok? <==>
      && id in s.orders && code.Some? && GetByCode(s.products, code.value).Some?
      && s.orders[id].status == New && qty > 0
    ensures r.Ok? ==>
      var p := GetByCode(s.products, code.value).value;
      && id in r.value.orders
      && OnlyOrderChanged(s, r.value, id, r.value.orders[id])
      && AppendedOne(s.orders[id].items, r.value.orders[id].items, OrderItem(p, qty))
      && r.value.orders[id].status == New
      && Subtotal(r.value.orders[id].items) == Subtotal(s.orders[id].items) + p.price * qty
  {
    var _ :- FindOrder(s, id);
    var p :- Require(s.products, code);
    UpdateOrder(s, id, AddItemCmd(p, qty))
  }

  /** `OrderService.ComputeTotals`: throws for an unknown order. */
  function ComputeTotals(s: Store, id: OrderId): (r: Result<Totals>)
    ensures r.Err? <==> id !in s.orders
    ensures r.Err? ==> r.fault == InvalidOperation
    ensures r.Ok? ==> r.value.subtotal == Subtotal(s.orders[id].items)
    ensures r.Ok? ==> RoundsHalfEven(r.value.tax, r.value.subtotal * 22, 100)
    ensures r.Ok? ==> r.value.total == r.value.subtotal + r.value.tax
  {
    var o :- FindOrder(s, id);
    Ok(TotalsFor(Subtotal(o.items), TaxRate))
  }

  /** `OrderService.Checkout`: pays the order (New -> Paid). The receipt
      notification it then sends is not part of this model. */
  function Checkout(s: Store, id: OrderId): (r: Result<Store>)
    ensures r.Ok? <==> id in s.orders && s.orders[id].status == New
    ensures r.Err? ==> r.fault == InvalidOperation
    ensures r.Ok? ==> OnlyOrderChanged(s, r.value, id, s.orders[id].(status := Paid))
  {
    UpdateOrder(s, id, PayCmd)
  }

  /** `OrderService.Ship`: Paid -> Shipped. */
  function ShipOrder(s: Store, id: OrderId): (r: Result<Store>)
    ensures r.Ok? <==> id in s.orders && s.orders[id].status == Paid
    ensures r.Err? ==> r.fault == InvalidOperation
    ensures r.Ok? ==> OnlyOrderChanged(s, r.value, id, s.orders[id].(status := Shipped))
  {
    UpdateOrder(s, id, ShipCmd)
  }

  /** `OrderService.Cancel`: any status but Shipped -> Cancelled. */
  function CancelOrder(s: Store, id: OrderId): (r: Result<Store>)
    ensures r.Ok? <==> id in s.orders && s.orders[id].status != Shipped
    ensures r.Err? ==> r.fault == InvalidOperation
    ensures r.Ok? ==> OnlyOrderChanged(s, r.value, id, s.orders[id].(status := Cancelled))
  {
    UpdateOrder(s, id, CancelCmd)
  }

  /** The empty store the composition root starts from. */
  const EmptyStore: Store := Store(map[], map[])

  /** The seed product codes are neither blank nor changed by case folding. */
  lemma SeedCodes()
    ensures FoldCase("PEN") == "PEN" && FoldCase("NBK") == "NBK" && FoldCase("MUG") == "MUG"
    ensures !IsBlank("PEN") && !IsBlank("NBK") && !IsBlank("MUG")
  {
    assert !IsWhiteSpace("PEN"[0]) && !IsWhiteSpace("NBK"[0]) && !IsWhiteSpace("MUG"[0]);
  }

  /** The composition root's product seed: PEN, NBK and MUG. */
  function SeedProducts(): ProductRepo {
    SeedCodes();
    var r1 := CreateProduct(EmptyStore.products, Some("PEN"), "Penna Blu", 150).value;
    var r2 := CreateProduct(r1, Some("NBK"), "Taccuino A5", 420).value;
    CreateProduct(r2, Some("MUG"), "Tazza Logo", 890).value
  }

  lemma SeedLookups()
    ensures GetByCode(SeedProducts(), "PEN") == Some(Product("PEN", "Penna Blu", 150))
    ensures GetByCode(SeedProducts(), "MUG") == Some(Product("MUG", "Tazza Logo", 890))
  {
    SeedFindsPen();
    SeedFindsMug();
  }

  lemma SeedFindsPen()
    ensures GetByCode(SeedProducts(), "PEN") == Some(Product("PEN", "Penna Blu", 150))
  {
    SeedCodes();
    var pen := Some(Product("PEN", "Penna Blu", 150));
    var r1 := CreateProduct(EmptyStore.products, Some("PEN"), "Penna Blu", 150).value;
    assert GetByCode(r1, "PEN") == pen;
    var r2 := CreateProduct(r1, Some("NBK"), "Taccuino A5", 420).value;
    assert FoldChar("PEN"[0]) != FoldChar("NBK"[0]);
    assert GetByCode(r2, "PEN") == pen;
    assert FoldChar("PEN"[0]) != FoldChar("MUG"[0]);
  }

  lemma SeedFindsMug()
    ensures GetByCode(SeedProducts(), "MUG") == Some(Product("MUG", "Tazza Logo", 890))
  {
    SeedCodes();
  }

  /** The demo's order flow: create an order, add PEN x2 and MUG x1, compute the
      totals, check out and ship. No step of it throws. */
  function Demo(id: OrderId): (Totals, Store) {
    SeedLookups();
    var s0 := CreateOrder(Store(SeedProducts(), map[]), id, "mario.rossi@example.com");
    var s1 := OrderAddItem(s0, id, Some("PEN"), 2).value;
    var s2 := OrderAddItem(s1, id, Some("MUG"), 1).value;
    var totals := ComputeTotals(s2, id).value;
    var s3 := Checkout(s2, id).value;
    var s4 := ShipOrder(s3, id).value;
    (totals, s4)
  }

  /** The demo's totals are 11.90 + 2.62 = 14.52 EUR and it ends Shipped with two lines. */
  lemma DemoScenario(id: OrderId)
    ensures Demo(id).0 == Totals(1190, 262, 1452)
    ensures id in Demo(id).1.orders
    ensures Demo(id).1.orders[id].status == Shipped
    ensures |Demo(id).1.orders[id].items| == 2
  {
    SeedLookups();
    var s0 := CreateOrder(Store(SeedProducts(), map[]), id, "mario.rossi@example.com");
    var s1 := OrderAddItem(s0, id, Some("PEN"), 2).value;
    assert Subtotal(s1.orders[id].items) == 300;
    var s2 := OrderAddItem(s1, id, Some("MUG"), 1).value;
    assert Subtotal(s2.orders[id].items) == 1190;
    RoundHalfEvenUnique(262, 1190 * 22, 100);
    assert ComputeTotals(s2, id).value == Totals(1190, 262, 1452);
  }
}

=== FILE: ntier_domain.dfy ===
/** The Domain layer of the N-tier order exercise: an order moves through
    New -> Paid -> Shipped, may be Cancelled from any status except Shipped,
    and accepts items only while New. Each mutating member of the C# `Order`
    class becomes a function from the order to a `Result`: `Err` is the
    exception, which the C# code throws before touching the order. */
module NtierDomain {
  import opened Outcomes
  import opened Money

  datatype OrderStatus = New | Paid | Shipped | Cancelled

  datatype Product = Product(code: string, name: string, price: Cents)

  datatype OrderItem = OrderItem(product: Product, quantity: int)

  /** Price times quantity. */
  function LineTotal(item: OrderItem): Cents {
    item.product.price * item.quantity
  }

  /** The order's `Guid`, an opaque fresh identifier. */
  type OrderId = nat

  datatype Order = Order(id: OrderId, customer: string, status: OrderStatus, items: seq<OrderItem>)

  /** `new Order(customer)`: status New and no items. */
  function NewOrder(id: OrderId, customer: string): (o: Order)
    ensures o.id == id && o.customer == customer
    ensures o.status == New && o.items == []
    ensures Subtotal(o.items) == 0
  {
    Order(id, customer, New, [])
  }

  /** Sum of the line totals: zero for no items, and never negative when no
      line total is. */
  function Subtotal(items: seq<OrderItem>): (s: Cents)
    ensures |items| == 0 ==> s == 0
    ensures (forall i :: 0 <= i < |items| ==> LineTotal(items[i]) >= 0) ==> s >= 0
  {
    if |items| == 0 then 0
    else
      assert forall i :: 1 <= i < |items| ==> items[i] == items[1..][i - 1];
      LineTotal(items[0]) + Subtotal(items[1..])
  }

  /** The subtotal grows by exactly the line total of an appended item. */
  lemma {:induction false} SubtotalAppend(items: seq<OrderItem>, item: OrderItem)
    ensures Subtotal(items + [item]) == Subtotal(items) + LineTotal(item)
  {
    if |items| > 0 {
      assert (items + [item])[1..] == items[1..] + [item];
      SubtotalAppend(items[1..], item);
    }
  }

  /** The subtotal of a concatenation is the sum of the subtotals. */
  lemma {:induction false} SubtotalConcat(a: seq<OrderItem>, b: seq<OrderItem>)
    ensures Subtotal(a + b) == Subtotal(a) + Subtotal(b)
  {
    if |a| == 0 {
      assert a + b == b;
    } else {
      assert (a + b)[1..] == a[1..] + b;
      SubtotalConcat(a[1..], b);
    }
  }

  /** With non-negative prices and quantities the subtotal is non-negative. */
  lemma {:induction false} SubtotalNonNegative(items: seq<OrderItem>)
    requires forall i :: 0 <= i < |items| ==> items[i].product.price >= 0 && items[i].quantity >= 0
    ensures Subtotal(items) >= 0
  {
    if |items| > 0 {
      SubtotalNonNegative(items[1..]);
    }
  }

  /** `items` is `before` followed by exactly the one item `item`. */
  predicate AppendedOne(before: seq<OrderItem>, after: seq<OrderItem>, item: OrderItem) {
    |after| == |before| + 1 && after[..|before|] == before && after[|before|] == item
  }

  /** `Order.AddItem`: only while New (else InvalidOperationException), only a
      positive quantity (else ArgumentException); appends one item at the end. */
  function AddItem(o: Order, p: Product, qty: int): (r: Result<Order>)
    ensures o.status != New ==> r == Err(InvalidOperation)
    ensures o.status == New && qty <= 0 ==> r == Err(InvalidArgument)
    ensures r.Ok? <==> o.status == New && qty > 0
    ensures r.Ok? ==> r.value.id == o.id && r.value.customer == o.customer && r.value.status == o.status
    ensures r.Ok? ==> AppendedOne(o.items, r.value.items, OrderItem(p, qty))
    ensures r.Ok? ==> Subtotal(r.value.items) == Subtotal(o.items) + p.price * qty
  {
    if o.status != New then Err(InvalidOperation)
    else if qty <= 0 then Err(InvalidArgument)
    else
      SubtotalAppend(o.items, OrderItem(p, qty));
      Ok(o.(items := o.items + [OrderItem(p, qty)]))
  }

  /** `Order.Pay`: New -> Paid. */
  function Pay(o: Order): (r: Result<Order>)
    ensures r.Ok? <==> o.status == New
    ensures r.Err? ==> r.fault == InvalidOperation
    ensures r.Ok? ==> r.value.status == Paid && r.value.items == o.items && r.value.id == o.id && r.value.customer == o.customer
  {
    if o.status != New then Err(InvalidOperation) else Ok(o.(status := Paid))
  }

  /** `Order.Ship`: Paid -> Shipped. */
  function Ship(o: Order): (r: Result<Order>)
    ensures r.Ok? <==> o.status == Paid
    ensures r.Err? ==> r.fault == InvalidOperation
    ensures r.Ok? ==> r.value.status == Shipped && r.value.items == o.items && r.value.id == o.id && r.value.customer == o.customer
  {
    if o.status != Paid then Err(InvalidOperation) else Ok(o.(status := Shipped))
  }

  /** `Order.Cancel`: any status but Shipped -> Cancelled. */
  function Cancel(o: Order): (r: Result<Order>)
    ensures r.Ok? <==> o.status != Shipped
    ensures r.Err? ==> r.fault == InvalidOperation
    ensures r.Ok? ==> r.value.status == Cancelled && r.value.items == o.items && r.value.id == o.id && r.value.customer == o.customer
  {
    if o.status == Shipped then Err(InvalidOperation) else Ok(o.(status := Cancelled))
  }

  /** A call on an order. */
  datatype Command = AddItemCmd(product: Product, qty: int) | PayCmd | ShipCmd | CancelCmd

  function Step(o: Order, c: Command): Result<Order> {
    match c
    case AddItemCmd(p, q) => AddItem(o, p, q)
    case PayCmd => Pay(o)
    case ShipCmd => Ship(o)
    case CancelCmd => Cancel(o)
  }

  /** A sequence of calls, stopping at the first exception. */
  function Run(o: Order, cs: seq<Command>): Result<Order>
    decreases |cs|
  {
    if |cs| == 0 then Ok(o)
    else
      match Step(o, cs[0])
      case Ok(o') => Run(o', cs[1..])
      case Err(f) => Err(f)
  }

  /** The state machine's edges, stated as a table: which status a call
      leaves an order in when it succeeds. */
  function Target(s: OrderStatus, c: Command): Option<OrderStatus> {
    match (s, c)
    case (New, AddItemCmd(_, q)) => if q > 0 then Some(New) else None
    case (New, PayCmd) => Some(Paid)
    case (Paid, ShipCmd) => Some(Shipped)
    case (New, CancelCmd) => Some(Cancelled)
    case (Paid, CancelCmd) => Some(Cancelled)
    case (Cancelled, CancelCmd) => Some(Cancelled)
    case _ => None
  }

  /** Every call follows the table: it succeeds exactly on the table's edges and
      lands on the edge's target; a refused call throws InvalidOperationException
      or, for a non-positive quantity, ArgumentException. */
  lemma StepFollowsTable(o: Order, c: Command)
    ensures Step(o, c).Ok? <==> Target(o.status, c).Some?
    ensures Step(o, c).Ok? ==> Step(o, c).value.status == Target(o.status, c).value
    ensures Step(o, c).Err? && !(c.AddItemCmd? && o.status == New) ==> Step(o, c).fault == InvalidOperation
  {
  }

  /** Shipped is terminal: every call on a shipped order throws. */
  lemma ShippedIsTerminal(o: Order, c: Command)
    requires o.status == Shipped
    ensures Step(o, c) == Err(InvalidOperation)
  {
  }

  /** Statuses reachable from a status, reflexively. */
  predicate Reaches(s: OrderStatus, t: OrderStatus) {
    || s == t
    || (s == New && t != New)
    || (s == Paid && (t == Shipped || t == Cancelled))
  }

  /** Every order item has a positive quantity. */
  predicate PositiveQuantities(items: seq<OrderItem>) {
    forall i :: 0 <= i < |items| ==> items[i].quantity > 0
  }

  /** Over any successful sequence of calls: the identity and customer are kept,
      the status only moves forward along the state machine, items are only
      appended, items are appended only if the order started New, and every item
      keeps a positive quantity. */
  lemma {:induction false} RunInvariants(o: Order, cs: seq<Command>)
    requires PositiveQuantities(o.items)
    ensures Run(o, cs).Ok? ==>
      var o' := Run(o, cs).value;
      && o'.id == o.id && o'.customer == o.customer
      && Reaches(o.status, o'.status)
      && |o.items| <= |o'.items| && o'.items[..|o.items|] == o.items
      && (o.status != New ==> o'.items == o.items)
      && PositiveQuantities(o'.items)
    decreases |cs|
  {
    if |cs| > 0 {
      var r := Step(o, cs[0]);
      if r.Ok? {
        var o1 := r.value;
        assert PositiveQuantities(o1.items);
        RunInvariants(o1, cs[1..]);
        if Run(o, cs).Ok? {
          var o' := Run(o, cs).value;
          assert o'.items[..|o1.items|] == o1.items;
          assert o1.items[..|o.items|] == o.items;
          assert o'.items[..|o.items|] == o'.items[..|o1.items|][..|o.items|];
        }
      }
    }
  }

  /** Cancelled is reachable from every status except Shipped, by one call. */
  lemma CancelReachable(o: Order)
    requires o.status != Shipped
    ensures Run(o, [CancelCmd]) == Ok(o.(status := Cancelled))
  {
  }
}

=== FILE: ntier_easy.dfy ===
/** The simplified N-tier exercise: the same order, product and status types
    and the same Pay / Ship / Cancel transitions as the full exercise, but an
    `AddItem` without a quantity check; the quantity is validated instead by the
    interactive entry loop of the program, which reads product codes and
    quantities until a blank code. */
module NtierEasy {
  import opened Outcomes
  import opened Text
  import opened Money
  import opened NtierDomain

  /** The VAT rate of the configuration singleton `Configurazione`, 22%. */
  const TaxRate: Rate := Rate(22, 2)

  /** The product list the program starts with. */
  const Catalogue: seq<Product> := [
    Product("PEN", "Penna Blu", 150),
    Product("NBK", "Taccuino", 420),
    Product("MUG", "Tazza Logo", 890)
  ]

  /** `Order.AddItem` of this exercise: only while New, any quantity. */
  function AddItem(o: Order, p: Product, qty: int): (r: Result<Order>)
    ensures r.Ok? <==> o.status == New
    ensures r.Err? ==> r.fault == InvalidOperation
    ensures r.Ok? ==> r.value.id == o.id && r.value.customer == o.customer && r.value.status == New
    ensures r.Ok? ==> AppendedOne(o.items, r.value.items, OrderItem(p, qty))
    ensures r.Ok? ==> Subtotal(r.value.items) == Subtotal(o.items) + p.price * qty
  {
    if o.status != New then Err(InvalidOperation)
    else
      SubtotalAppend(o.items, OrderItem(p, qty));
      Ok(o.(items := o.items + [OrderItem(p, qty)]))
  }

  /** The unchecked `AddItem` agrees with the checked one whenever the quantity
      is positive, and accepts what the checked one rejects otherwise. */
  lemma AddItemUnchecked(o: Order, p: Product, qty: int)
    ensures qty > 0 ==> AddItem(o, p, qty) == NtierDomain.AddItem(o, p, qty)
    ensures qty <= 0 && o.status == New ==> AddItem(o, p, qty).Ok? && NtierDomain.AddItem(o, p, qty).Err?
  {
  }

  /** The status transitions of this exercise: Pay New -> Paid, Ship Paid ->
      Shipped, Cancel from New, Paid or Cancelled -> Cancelled; any other call
      throws InvalidOperationException. Cancel is idempotent. */
  lemma Transitions(o: Order)
    ensures Pay(o).Ok? <==> o.status == New
    ensures Ship(o).Ok? <==> o.status == Paid
    ensures Cancel(o).Ok? <==> o.status in {New, Paid, Cancelled}
    ensures Pay(o).Err? ==> Pay(o).fault == InvalidOperation
    ensures Ship(o).Err? ==> Ship(o).fault == InvalidOperation
    ensures Cancel(o).Err? ==> Cancel(o).fault == InvalidOperation
    ensures Cancel(o).Ok? ==> Cancel(Cancel(o).value) == Cancel(o)
  {
  }

  /** `prodotti.FirstOrDefault(p => p.Code.Equals(code, OrdinalIgnoreCase))`. */
  function FindByCode(products: seq<Product>, code: string): (r: Option<Product>)
    ensures r.Some? ==> r.value in products && EqualsIgnoreCase(r.value.code, code)
    ensures r.None? <==> forall i :: 0 <= i < |products| ==> !EqualsIgnoreCase(products[i].code, code)
  {
    if |products| == 0 then None
    else if EqualsIgnoreCase(products[0].code, code) then Some(products[0])
    else FindByCode(products[1..], code)
  }

  /** The first match wins: no earlier product matches the code. */
  lemma {:induction false} FindByCodeFirst(products: seq<Product>, code: string)
    ensures FindByCode(products, code).Some? ==>
      exists k :: 0 <= k < |products| && products[k] == FindByCode(products, code).value
        && forall j :: 0 <= j < k ==> !EqualsIgnoreCase(products[j].code, code)
  {
    if |products| > 0 && !EqualsIgnoreCase(products[0].code, code) {
      FindByCodeFirst(products[1..], code);
      if FindByCode(products, code).Some? {
        var k :| 0 <= k < |products[1..]| && products[1..][k] == FindByCode(products, code).value
          && forall j :: 0 <= j < k ==> !EqualsIgnoreCase(products[1..][j].code, code);
        assert products[k + 1] == FindByCode(products, code).value;
      }
    } else if |products| > 0 {
      assert products[0] == FindByCode(products, code).value;
    }
  }

  /** One round of the entry loop: the code line (null at end of input) and the
      quantity line after `int.TryParse` (None when it does not parse). The
      quantity line is read only when the code names a product: after a blank
      or unknown code the loop ends or moves on first, and `quantity` is
      ignored (write None there). */
  datatype Entry = Entry(code: NullableString, quantity: Option<int>)

  /** Reference definition of the items the loop adds: stop at the first blank
      code; skip an unknown code or a missing or non-positive quantity. */
  function Accepted(products: seq<Product>, entries: seq<Entry>): seq<OrderItem>
    decreases |entries|
  {
    if |entries| == 0 || IsNullOrWhiteSpace(entries[0].code) then []
    else
      var e := entries[0];
      match FindByCode(products, e.code.value)
      case None => Accepted(products, entries[1..])
      case Some(p) =>
        if e.quantity.None? || e.quantity.value <= 0 then Accepted(products, entries[1..])
        else [OrderItem(p, e.quantity.value)] + Accepted(products, entries[1..])
  }

  /** Every accepted item has a positive quantity and a product of the list. */
  lemma {:induction false} AcceptedValid(products: seq<Product>, entries: seq<Entry>)
    ensures PositiveQuantities(Accepted(products, entries))
    ensures forall i :: 0 <= i < |Accepted(products, entries)| ==> Accepted(products, entries)[i].product in products
    decreases |entries|
  {
    if |entries| > 0 && !IsNullOrWhiteSpace(entries[0].code) {
      AcceptedValid(products, entries[1..]);
    }
  }

  /** The `while (true)` entry loop of the program, on an order still New. */
  method EnterItems(products: seq<Product>, order: Order, entries: seq<Entry>) returns (o: Order)
    requires order.status == New
    ensures o.id == order.id && o.customer == order.customer && o.status == New
    ensures o.items == order.items + Accepted(products, entries)
    ensures forall i :: |order.items| <= i < |o.items| ==> o.items[i].quantity > 0 && o.items[i].product in products
  {
    o := order;
    var k := 0;
    while k < |entries|
      invariant 0 <= k <= |entries|
      invariant o.id == order.id && o.customer == order.customer && o.status == New
      invariant o.items + Accepted(products, entries[k..]) == order.items + Accepted(products, entries)
    {
      var e := entries[k];
      assert entries[k..][1..] == entries[k + 1..];
      if IsNullOrWhiteSpace(e.code) {
        break;
      }
      var found := FindByCode(products, e.code.value);
      if found.None? {
        k := k + 1;
        continue;
      }
      if e.quantity.None? || e.quantity.value <= 0 {
        k := k + 1;
        continue;
      }
      var r := AddItem(o, found.value, e.quantity.value);
      o := r.value;
      k := k + 1;
    }
    AcceptedValid(products, entries);
  }

  /** Subtotal, VAT (`Math.Round(sub * TaxRate, 2)`) and total of the order. */
  function OrderTotals(o: Order): (t: Totals)
    ensures t.subtotal == Subtotal(o.items)
    ensures RoundsHalfEven(t.tax, t.subtotal * 22, 100)
    ensures t.total == t.subtotal + t.tax
  {
    TotalsFor(Subtotal(o.items), TaxRate)
  }

  /** The two confirmation prompts: pay if the first answer is "s", then ship
      if the second is. Shipping an unpaid order throws. */
  function Confirm(o: Order, pay: bool, ship: bool): (r: Result<Order>)
    ensures o.status == New ==> (r.Ok? <==> pay || !ship)
    ensures r.Err? ==> r.fault == InvalidOperation
    ensures r.Ok? ==> r.value.items == o.items && r.value.id == o.id && r.value.customer == o.customer
    ensures o.status == New && r.Ok? ==>
      r.value.status == (if ship then Shipped else if pay then Paid else New)
  {
    var o1 :- if pay then Pay(o) else Ok(o);
    if ship then Ship(o1) else Ok(o1)
  }

  /** A whole session of the program: create the order, read the items,
      compute the totals, answer the two prompts. */
  method Session(id: OrderId, customer: string, entries: seq<Entry>, pay: bool, ship: bool)
    returns (totals: Totals, r: Result<Order>)
    ensures totals.subtotal == Subtotal(Accepted(Catalogue, entries))
    ensures RoundsHalfEven(totals.tax, totals.subtotal * 22, 100)
    ensures totals.total == totals.subtotal + totals.tax
    ensures r.Ok? <==> pay || !ship
    ensures r.Err? ==> r.fault == InvalidOperation
    ensures r.Ok? ==> r.value.id == id && r.value.customer == customer
    ensures r.Ok? ==> r.value.items == Accepted(Catalogue, entries) && PositiveQuantities(r.value.items)
    ensures r.Ok? ==> r.value.status == (if ship then Shipped else if pay then Paid else New)
  {
    var o := NewOrder(id, customer);
    o := EnterItems(Catalogue, o, entries);
    assert o.items == Accepted(Catalogue, entries);
    totals := OrderTotals(o);
    r := Confirm(o, pay, ship);
  }

  /** Strings whose first characters differ ignoring case are different ignoring case. */
  lemma DifferAtStart(a: string, b: string)
    requires |a| > 0 && |b| > 0 && FoldChar(a[0]) != FoldChar(b[0])
    ensures !EqualsIgnoreCase(a, b)
  {
  }

  /** Three-letter strings equal letter by letter ignoring case. */
  lemma SameLetters(a: string, b: string)
    requires |a| == 3 && |b| == 3
    requires FoldChar(a[0]) == FoldChar(b[0]) && FoldChar(a[1]) == FoldChar(b[1]) && FoldChar(a[2]) == FoldChar(b[2])
    ensures EqualsIgnoreCase(a, b)
  {
  }

  /** "pen" finds the first catalogue entry. */
  lemma FindsPen()
    ensures FindByCode(Catalogue, "pen") == Some(Catalogue[0])
  {
    SameLetters("PEN", "pen");
  }

  /** "XYZ" is in no spelling of the catalogue. */
  lemma MissesXyz()
    ensures FindByCode(Catalogue, "XYZ") == None
  {
    DifferAtStart("PEN", "XYZ");
    DifferAtStart("NBK", "XYZ");
    DifferAtStart("MUG", "XYZ");
  }

  /** Any spelling of MUG finds the third catalogue entry. */
  lemma FindsMug(code: string)
    requires |code| == 3 && FoldChar(code[0]) == 'M' && FoldChar(code[1]) == 'U' && FoldChar(code[2]) == 'G'
    ensures FindByCode(Catalogue, code) == Some(Catalogue[2])
  {
    DifferAtStart("PEN", code);
    DifferAtStart("NBK", code);
    SameLetters("MUG", code);
    assert Catalogue[1..][1..] == [Catalogue[2]];
  }

  /** One unfolding of `Accepted` on a non-blank code. */
  lemma AcceptedUnfold(products: seq<Product>, entries: seq<Entry>)
    requires |entries| > 0 && entries[0].code.Some? && !IsBlank(entries[0].code.value)
    ensures
      var e := entries[0];
      var found := FindByCode(products, e.code.value);
      Accepted(products, entries) ==
        if found.None? || e.quantity.None? || e.quantity.value <= 0 then Accepted(products, entries[1..])
        else [OrderItem(found.value, e.quantity.value)] + Accepted(products, entries[1..])
  {
  }

  /** A sample run of the entry loop: a lower-case code, an unknown code, a
      zero quantity, an unparsable quantity, a mixed-case code, a blank code
      and a code after it. */
  const Sample: seq<Entry> := [
    Entry(Some("pen"), Some(2)), Entry(Some("XYZ"), None), Entry(Some("MUG"), Some(0)),
    Entry(Some("mug"), None), Entry(Some("Mug"), Some(1)), Entry(Some(" "), Some(5)),
    Entry(Some("NBK"), Some(3))]

  lemma SampleFromMixedCase()
    ensures Accepted(Catalogue, Sample[4..]) == [OrderItem(Catalogue[2], 1)]
  {
    var es := Sample[4..];
    assert es[1..][0].code == Some(" ");
    assert IsBlank(" ");
    assert Accepted(Catalogue, es[1..]) == [];
    assert !IsWhiteSpace("Mug"[0]);
    FindsMug("Mug");
    AcceptedUnfold(Catalogue, es);
  }

  lemma SampleFromUnparsable()
    ensures Accepted(Catalogue, Sample[3..]) == [OrderItem(Catalogue[2], 1)]
  {
    SampleFromMixedCase();
    assert Sample[3..][1..] == Sample[4..];
    assert !IsWhiteSpace("mug"[0]);
    AcceptedUnfold(Catalogue, Sample[3..]);
  }

  lemma SampleFromZero()
    ensures Accepted(Catalogue, Sample[2..]) == [OrderItem(Catalogue[2], 1)]
  {
    SampleFromUnparsable();
    assert Sample[2..][1..] == Sample[3..];
    assert !IsWhiteSpace("MUG"[0]);
    AcceptedUnfold(Catalogue, Sample[2..]);
  }

  lemma SampleFromUnknown()
    ensures Accepted(Catalogue, Sample[1..]) == [OrderItem(Catalogue[2], 1)]
  {
    SampleFromZero();
    assert Sample[1..][1..] == Sample[2..];
    assert !IsWhiteSpace("XYZ"[0]);
    MissesXyz();
    AcceptedUnfold(Catalogue, Sample[1..]);
  }

  /** In the sample, lower- and mixed-case codes are found, an unknown code, a
      zero quantity and an unparsable quantity are skipped, and the blank code
      ends the loop before NBK. */
  lemma SampleEntries()
    ensures Accepted(Catalogue, Sample) == [OrderItem(Catalogue[0], 2), OrderItem(Catalogue[2], 1)]
  {
    SampleFromUnknown();
    assert !IsWhiteSpace("pen"[0]);
    FindsPen();
    AcceptedUnfold(Catalogue, Sample);
  }
}

=== FILE: outcomes.dfy ===
/** Failure-carrying datatypes shared by every module of the model.
    A C# method that either returns normally or throws is modelled as a
    function returning `Result`; the exception's class becomes a `Fault`. */
module Outcomes {

  /** A value that may be absent; also stands for a C# reference that may be null. */
  datatype Option<+T> = None | Some(value: T)

  /** The exception classes thrown by the modelled code. */
  datatype Fault =
    | InvalidOperation    // System.InvalidOperationException
    | InvalidArgument     // System.ArgumentException
    | ArgumentNull        // System.ArgumentNullException
    | ArgumentOutOfRange  // System.ArgumentOutOfRangeException

  /** Normal completion with a value, or the exception that aborted the call. */
  datatype Result<+T> = Ok(value: T) | Err(fault: Fault) {

    predicate IsFailure() {
      Err?
    }

    function PropagateFailure<U>(): Result<U>
      requires Err?
    {
      Err(fault)
    }

    function Extract(): T
      requires Ok?
    {
      value
    }

    /** The value, or None when the call threw. */
    function ToOption(): Option<T> {
      match this
      case Ok(v) => Some(v)
      case Err(_) => None
    }
  }
}

=== FILE: payments.dfy ===
/** The payment exercise: discount policies (Strategy), a payment-method
    factory over an int-backed enum (Factory), and a payment service that
    validates the amount, applies the discount, pays, and notifies the
    subscribed handlers (Delegate / event). Logging, paying and notifying are
    recorded in the returned receipt instead of being performed. */
module Payments {
  import opened Outcomes
  import opened Money

  // ---------------------------------------------------------------- discounts

  /** `IDiscountPolicy` and its two implementations. */
  datatype DiscountPolicy = NoDiscountPolicy | PercentDiscountPolicy(percent: Rate)

  /** `Applica`: the net amount for a gross amount. No discount is the identity;
      a percent p gives `Math.Round(gross * (1 - p), 2)`. */
  function Applica(policy: DiscountPolicy, gross: Cents): (net: Cents)
    ensures policy.NoDiscountPolicy? ==> net == gross
    ensures policy.PercentDiscountPolicy? ==>
      RoundsHalfEven(net, gross * Complement(policy.percent).num, Pow10(policy.percent.scale))
  {
    match policy
    case NoDiscountPolicy => gross
    case PercentDiscountPolicy(p) => ApplyRate(gross, Complement(p))
  }

  /** A percent between 0 and 1 never makes a non-negative amount negative or larger. */
  lemma DiscountWithin(p: Rate, gross: Cents)
    requires 0 <= p.num <= Pow10(p.scale)
    requires gross >= 0
    ensures 0 <= Applica(PercentDiscountPolicy(p), gross) <= gross
  {
    ApplyRateWithin(gross, Complement(p));
  }

  /** A zero percent discount is no discount. */
  lemma ZeroPercentIsNoDiscount(gross: Cents, scale: nat)
    ensures Applica(PercentDiscountPolicy(Rate(0, scale)), gross) == Applica(NoDiscountPolicy, gross)
  {
    ApplyUnitRate(gross, scale);
  }

  /** 10% off: 100.00 becomes 90.00, and 0.05 becomes 0.045, a tie rounded to the
      even cent 0.04. */
  lemma TenPercentExamples()
    ensures Applica(PercentDiscountPolicy(Rate(10, 2)), 10000) == 9000
    ensures Applica(PercentDiscountPolicy(Rate(10, 2)), 5) == 4
    ensures Applica(PercentDiscountPolicy(Rate(10, 2)), 15) == 14
  {
    RoundHalfEvenUnique(9000, 10000 * 90, 100);
    RoundHalfEvenUnique(4, 5 * 90, 100);
    RoundHalfEvenUnique(14, 15 * 90, 100);
  }

  // ------------------------------------------------------------------ factory

  /** The concrete `IPagamento` classes. */
  datatype PaymentMethod = PagamentoCarta | PagamentoPayPal | PagamentoBonifico

  /** The `TipoPagamento` value (Carta = 1, PayPal = 2, Bonifico = 3) that selects a method. */
  function TipoOf(m: PaymentMethod): int {
    match m
    case PagamentoCarta => 1
    case PagamentoPayPal => 2
    case PagamentoBonifico => 3
  }

  /** `Enum.IsDefined(typeof(TipoPagamento), v)`. */
  predicate IsDefined(v: int) {
    v == 1 || v == 2 || v == 3
  }

  /** `PagamentoFactory.Crea`: a C# enum holds any int, and a value outside the
      three members throws ArgumentOutOfRangeException. */
  function Crea(tipo: int): (r: Result<PaymentMethod>)
    ensures r.Ok? <==> IsDefined(tipo)
    ensures r.Err? ==> r.fault == ArgumentOutOfRange
    ensures r.Ok? ==> TipoOf(r.value) == tipo
  {
    if tipo == 1 then Ok(PagamentoCarta)
    else if tipo == 2 then Ok(PagamentoPayPal)
    else if tipo == 3 then Ok(PagamentoBonifico)
    else Err(ArgumentOutOfRange)
  }

  /** The factory inverts `TipoOf`: each method is created from its own value,
      and exactly the defined values create one. */
  lemma CreaInvertsTipo(m: PaymentMethod, v: int)
    ensures Crea(TipoOf(m)) == Ok(m)
    ensures IsDefined(v) <==> exists m' :: TipoOf(m') == v
  {
    if v == 1 { assert TipoOf(PagamentoCarta) == v; }
    if v == 2 { assert TipoOf(PagamentoPayPal) == v; }
    if v == 3 { assert TipoOf(PagamentoBonifico) == v; }
  }

  // ---------------------------------------------------------- transaction ids

  function Prefix(m: PaymentMethod): string {
    match m
    case PagamentoCarta => "CARD-"
    case PagamentoPayPal => "PYPL-"
    case PagamentoBonifico => "BONF-"
  }

  /** `Paga`: `$"{prefix}{Guid.NewGuid():N}".Substring(0, 12)`, where `guidHex`
      is the 32 hexadecimal digits of the fresh Guid. */
  function TransactionId(m: PaymentMethod, guidHex: string): (id: string)
    requires |guidHex| == 32
    ensures |id| == 12
    ensures id[..5] == Prefix(m)
    ensures id[5..] == guidHex[..7]
  {
    (Prefix(m) + guidHex)[..12]
  }

  /** The method a transaction id was issued by, read back from its prefix. */
  function MethodOfId(id: string): Option<PaymentMethod> {
    if |id| < 5 then None
    else if id[..5] == "CARD-" then Some(PagamentoCarta)
    else if id[..5] == "PYPL-" then Some(PagamentoPayPal)
    else if id[..5] == "BONF-" then Some(PagamentoBonifico)
    else None
  }

  /** Every transaction id names the method that issued it. */
  lemma IdNamesMethod(m: PaymentMethod, guidHex: string)
    requires |guidHex| == 32
    ensures MethodOfId(TransactionId(m, guidHex)) == Some(m)
  {
    var id := TransactionId(m, guidHex);
    assert id[..5] == Prefix(m);
  }

  // ------------------------------------------------------------------ service

  /** A subscribed `PagamentoCompletatoHandler`, identified by an opaque id. */
  type HandlerId = nat

  /** `PaymentService`: the injected method and discount policy, and the
      handlers of `OnPagamentoCompletato` in subscription order. */
  datatype PaymentService = PaymentService(payment: PaymentMethod, discount: DiscountPolicy, handlers: seq<HandlerId>)

  /** `OnPagamentoCompletato += h`: appended at the end, duplicates kept. */
  function Subscribe(svc: PaymentService, h: HandlerId): (r: PaymentService)
    ensures r.payment == svc.payment && r.discount == svc.discount
    ensures |r.handlers| == |svc.handlers| + 1 && r.handlers[..|svc.handlers|] == svc.handlers
    ensures r.handlers[|svc.handlers|] == h
  {
    svc.(handlers := svc.handlers + [h])
  }

  /** A line written to the `ILogger`. */
  datatype LogEntry = GrossAmount(amount: Cents) | NetAmount(amount: Cents) | PaymentSucceeded(transaction: string)

  /** One handler invocation with its two arguments. */
  datatype Notification = Notification(handler: HandlerId, transaction: string, net: Cents)

  /** What one `EseguiPagamento` did: the log lines in order, the net amount
      passed to `Paga`, the id it returned, and the handler invocations in order. */
  datatype Receipt = Receipt(log: seq<LogEntry>, charged: Cents, transaction: string, notifications: seq<Notification>)

  /** `OnPagamentoCompletato?.Invoke(id, net)`: every handler once, in order. */
  function Notify(handlers: seq<HandlerId>, id: string, net: Cents): (ns: seq<Notification>)
    ensures |ns| == |handlers|
    ensures forall i :: 0 <= i < |ns| ==> ns[i] == Notification(handlers[i], id, net)
  {
    if |handlers| == 0 then [] else [Notification(handlers[0], id, net)] + Notify(handlers[1..], id, net)
  }

  /** `PaymentService.EseguiPagamento`: a non-positive amount throws
      ArgumentException before anything is logged, paid or notified. */
  function EseguiPagamento(svc: PaymentService, amount: Cents, guidHex: string): (r: Result<Receipt>)
    requires |guidHex| == 32
    ensures r.Err? <==> amount <= 0
    ensures r.Err? ==> r.fault == InvalidArgument
    ensures r.Ok? ==>
      var net := Applica(svc.discount, amount);
      var id := TransactionId(svc.payment, guidHex);
      && r.value.log == [GrossAmount(amount), NetAmount(net), PaymentSucceeded(id)]
      && r.value.charged == net
      && r.value.transaction == id
      && |r.value.notifications| == |svc.handlers|
      && forall i :: 0 <= i < |svc.handlers| ==> r.value.notifications[i] == Notification(svc.handlers[i], id, net)
  {
    if amount <= 0 then Err(InvalidArgument)
    else
      var net := Applica(svc.discount, amount);
      var id := TransactionId(svc.payment, guidHex);
      Ok(Receipt([GrossAmount(amount), NetAmount(net), PaymentSucceeded(id)], net, id, Notify(svc.handlers, id, net)))
  }

  /** Subscribing one more handler adds exactly one invocation, at the end,
      and changes nothing else about a payment. */
  lemma SubscribeAddsLastNotification(svc: PaymentService, h: HandlerId, amount: Cents, guidHex: string)
    requires |guidHex| == 32
    requires amount > 0
    ensures
      var before := EseguiPagamento(svc, amount, guidHex).value;
      var after := EseguiPagamento(Subscribe(svc, h), amount, guidHex).value;
      && after.log == before.log && after.charged == before.charged
      && after.notifications == before.notifications + [Notification(h, before.transaction, before.charged)]
  {
    var before := EseguiPagamento(svc, amount, guidHex).value;
    var after := EseguiPagamento(Subscribe(svc, h), amount, guidHex).value;
    assert after.notifications == before.notifications + [Notification(h, before.transaction, before.charged)];
  }

  // ------------------------------------------------------------------ program

  /** How the program ends. */
  datatype ProgramOutcome = InvalidChoice | InvalidAmount | Completed(receipt: Receipt)

  /** The program's two handlers: the e-mail lambda and `NotificaCRM`. */
  const EmailHandler: HandlerId := 0
  const CrmHandler: HandlerId := 1

  /** `Main`: the parsed menu choice and amount (None when `TryParse` fails);
      a 10% discount and the two handlers, subscribed in this order. */
  function RunProgram(choice: Option<int>, amount: Option<Cents>, guidHex: string): (r: ProgramOutcome)
    requires |guidHex| == 32
    ensures r == InvalidChoice <==> choice.None? || !IsDefined(choice.value)
    ensures r == InvalidAmount <==> choice.Some? && IsDefined(choice.value) && (amount.None? || amount.value <= 0)
    ensures r.Completed? ==>
      && |r.receipt.notifications| == 2
      && r.receipt.notifications[0].handler == EmailHandler
      && r.receipt.notifications[1].handler == CrmHandler
      && r.receipt.charged == Applica(PercentDiscountPolicy(Rate(10, 2)), amount.value)
      && MethodOfId(r.receipt.transaction) == Crea(choice.value).ToOption()
  {
    if choice.None? || !IsDefined(choice.value) then InvalidChoice
    else if amount.None? || amount.value <= 0 then InvalidAmount
    else
      var m := Crea(choice.value).value;
      var svc := PaymentService(m, PercentDiscountPolicy(Rate(10, 2)), []);
      var svc' := Subscribe(Subscribe(svc, EmailHandler), CrmHandler);
      IdNamesMethod(m, guidHex);
      Completed(EseguiPagamento(svc', amount.value, guidHex).value)
  }
}

=== FILE: text.dfy ===
/** The .NET string primitives the modelled code relies on:
    nullable strings, `string.IsNullOrWhiteSpace` and ordinal
    case-insensitive comparison (`StringComparison.OrdinalIgnoreCase`). */
module Text {
  import opened Outcomes

  /** A C# `string` reference, which may be null. */
  type NullableString = Option<string>

  /** `char.IsWhiteSpace`: the Unicode space, line and paragraph separators
      plus the control characters U+0009..U+000D and U+0085. */
  predicate IsWhiteSpace(c: char) {
    || c == ' '
    || ('\t' <= c <= '\r')
    || c == '\U{85}'
    || c == '\U{A0}'
    || c == '\U{1680}'
    || ('\U{2000}' <= c <= '\U{200A}')
    || c == '\U{2028}'
    || c == '\U{2029}'
    || c == '\U{202F}'
    || c == '\U{205F}'
    || c == '\U{3000}'
  }

  /** Every character is white space (true of the empty string). */
  predicate IsBlank(s: string) {
    forall i :: 0 <= i < |s| ==> IsWhiteSpace(s[i])
  }

  /** `string.IsNullOrWhiteSpace`. */
  predicate IsNullOrWhiteSpace(s: NullableString) {
    s.None? || IsBlank(s.value)
  }

  /** The upper-case form under which two characters compare equal ignoring case. */
  function FoldChar(c: char): char {
    if 'a' <= c <= 'z' then (c as int - 32) as char else c
  }

  /** Character-wise case folding; the canonical key of a case-insensitive dictionary. */
  function FoldCase(s: string): string {
    seq(|s|, i requires 0 <= i < |s| => FoldChar(s[i]))
  }

  /** `a.Equals(b, StringComparison.OrdinalIgnoreCase)`. */
  predicate EqualsIgnoreCase(a: string, b: string) {
    |a| == |b| && forall i :: 0 <= i < |a| ==> FoldChar(a[i]) == FoldChar(b[i])
  }

  /** Two strings have the same folded key exactly when they compare equal ignoring case. */
  lemma FoldCaseIsIgnoreCase(a: string, b: string)
    ensures FoldCase(a) == FoldCase(b) <==> EqualsIgnoreCase(a, b)
  {
    if FoldCase(a) == FoldCase(b) {
      assert |a| == |FoldCase(a)|;
      forall i | 0 <= i < |a|
        ensures FoldChar(a[i]) == FoldChar(b[i])
      {
        assert FoldCase(a)[i] == FoldCase(b)[i];
      }
    }
  }

  /** Ignoring case is an equivalence relation. */
  lemma IgnoreCaseEquivalence(a: string, b: string, c: string)
    ensures EqualsIgnoreCase(a, a)
    ensures EqualsIgnoreCase(a, b) ==> EqualsIgnoreCase(b, a)
    ensures EqualsIgnoreCase(a, b) && EqualsIgnoreCase(b, c) ==> EqualsIgnoreCase(a, c)
  {
  }
}
